=== FILE: README.md ===
# printcore streaming engine, modelled in Dafny

printcore is Printrun's host-side engine for driving a RepRap-style 3D
printer over a serial line or a TCP socket. It frames G-code lines as
`N<lineno> <command>*<checksum>` and keeps every framed line that does not
mention the numbering reset `M110` in a log (`sentlines`), so it can replay lines when the firmware asks for them again.
It also interleaves urgent commands (`send_now`) ahead of the print
document, and it reads the firmware's replies (`ok`, greetings, `Resend:`
requests, temperature reports) on a listener thread.

This project models that engine as one immutable state record and pure
step functions. Each operation returns a `Step`, which holds:

- the next state;
- the lines written to the printer, in order;
- the callbacks raised, recorded as event tags.

The modules follow the structure of `printcore.py`:

| file | module | what it holds |
|---|---|---|
| `wrappers.dfy` | `Wrappers` | `Option` |
| `text.dfy` | `Text` | Python 2 byte-string operations in the C locale: `strip`, `lower`, `replace`, `split`, `split(c)`, `rfind`, `int()` and `str()` of integers, with the lemmas that let concrete lines be evaluated |
| `bits.dfy` | `Bits` | bitwise XOR on natural numbers, as Python's `^` computes it, with its algebra |
| `framer.dfy` | `Framer` | `_checksum`, the frame text, and a receiver's reading of a frame (`Unframe`, `Accepts`), which the framing properties are stated against |
| `engine.dfy` | `Engine` | the engine record, the invariant `Inv`, and `_send` (`Transmit`) |
| `lifecycle.dfy` | `Lifecycle` | `startprint`, `pause`, `resume`, `send`, `send_now`, `disconnect` |
| `scheduler.dfy` | `Scheduler` | one turn of the print thread (`_sendnext`), the `_print` epilogue, and multi-turn properties |
| `listener.dfy` | `Listener` | one received line (`_listen`), the greeting handshake (`_listen_until_online`), and resend-request parsing |
| `target.dfy` | `Target` | how `connect` tells a `host:port` TCP target from a serial device path |

Wire text is `seq<Byte>`, where a `Byte` is a character below 256, because
the source runs on Python 2 `str`.

Several parts of the source are handled explicitly:

- **Lookup errors.** A resend whose number the log does not hold is the
  `KeyError` that ends the print thread. It is modelled as the
  `Turn.MissingFrame` outcome, not as a precondition, so that turn sequences
  compose.
- **Thread loops.** The reads of the listener thread are an input sequence.
  `Some("")` is a read that timed out, `None` is a failed read, and the end of
  the sequence is the thread being told to stop.
- **Analyzer position.** The analyzer's position at pause time is a
  parameter of the turn (`pos`), kept as opaque text.
- **Thread joins.** `pause` and `disconnect` join another thread before they
  return, so the joined thread's remaining statements are part of the call.
  `Lifecycle.Pause` ends with the print thread's epilogue, which empties the
  log. The numbering is not reset, so after a resume a resend request for a
  line sent before the pause misses the log
  (`Scheduler.ResendAfterPauseMisses`). A `;@pause` host command runs on
  the print thread itself, so joining fails; that path is
  `Lifecycle.PauseInThread`.

A few behaviours differ from what the code's docstrings, comments or shape
suggest. The model follows what the code does:

- **`send` and `send_now` do not wait when idle.** Their docstrings
  (`Printrun/printcore.py:362` and `384`) say the command is sent
  immediately, and the settle loops after the write look like a wait for
  the acknowledgment. But those loops test `self.printing` inside the branch
  where printing is false, so they never run
  (`Printrun/printcore.py:368-379` and `389-399`). The only effect of a
  settle period is `clear = False`.
- **A failed read during the handshake is retried.** The comment at
  `Printrun/printcore.py:213` calls it a connection problem, but the `break`
  ends only the inner read loop, and the outer loop writes `M105` again
  (`Printrun/printcore.py:208-213`). It does not abort the handshake.
- **`pause` and `resume` return `None` on success.** The model reports
  `accepted = true`.
- **`startprint` with an empty document starts no print thread.** The
  docstring (`Printrun/printcore.py:273-276`) says printing starts in a
  parallel thread. For an empty document the method returns at
  `Printrun/printcore.py:286-287`, leaving `printing` set with no thread to
  clear it. The model keeps that behaviour.

## Model

| member | source | states |
|---|---|---|
| Framer.Checksum | Printrun/printcore.py:269-270 | the checksum of a non-empty text is the XOR of its byte values, always in 0..255 |
| Bits.XorAssociates | Printrun/printcore.py:269-270 | XOR is associative, so the left fold of `reduce` can be regrouped |
| Bits.XorBelow | Printrun/printcore.py:269-270 | the XOR of two numbers below 2^k is below 2^k |
| Bits.XorCancels | Printrun/printcore.py:269-270 | XORing the same values on both sides keeps two different values different |
| Framer.XorBytesBelow | Printrun/printcore.py:269-270 | the XOR of byte values is itself a byte value |
| Framer.XorConcat | Printrun/printcore.py:269-270 | the XOR fold over a concatenation is the XOR of the folds over the parts, so the checksum can be computed piecewise |
| Framer.ChecksumDetectsByteChange | Printrun/printcore.py:269-270 | two texts of equal length that differ in exactly one byte have different checksums, so any single corrupted byte is detected |
| Framer.FrameRoundTrip | Printrun/printcore.py:480-483 | reading back `N<n> <cmd>*<x>` (checksum after the last `*`, number up to the first space) yields n, cmd and the prefix; recomputing the XOR over that prefix gives x; a receiver accepts the frame as line n |
| Engine.Initial | Printrun/printcore.py:53-86 | a new engine satisfies `Inv`, which the operations keep (`StartPrintKeepsInv`, `SendKeepsInv`, `TakeTurn` and the others), as long as every `startprint` cursor lies within its document |
| Engine.SendFramed | Printrun/printcore.py:481-486 | the framing branch of `_send` writes the frame only when a transport is open; the receiver accepts it as that number carrying the command; it is logged under its number exactly when it does not contain `M110`; nothing else changes and the log stays well formed |
| Engine.Transmit | Printrun/printcore.py:480-485 | `_send` writes exactly one line if a transport is open and none otherwise. An unframed send writes the command as is and leaves the log alone. A framed send writes a frame the receiver accepts as that number, carrying the command. It logs the frame under its number unless the frame contains `M110`. Nothing else changes, and the log stays well formed |
| Engine.ResetNotLogged | Printrun/printcore.py:484-485 | the numbering reset frame `N-1 M110*..` contains `M110`, so it is never logged |
| Lifecycle.StartPrint | Printrun/printcore.py:272-291 | accepted exactly when not printing, online and connected (else no effect). Installs the document, sets the cursor to `startindex` and the numbering to 0, clears `resendfrom`, and writes only the reset frame. Claims the send slot and raises the start callback only for a non-empty document |
| Lifecycle.StartPrintKeepsInv | Printrun/printcore.py:272-291 | a start whose cursor lies inside the new document keeps `Inv`: the reset frame is not logged, so the log stays well formed |
| Lifecycle.ResetWritten | Printrun/printcore.py:285 | sending the framed reset writes `N-1 M110*..` when a transport is open and leaves the log and every other field unchanged |
| Lifecycle.PauseInThread | Printrun/printcore.py:309-331 | `pause` from the print thread itself, where the join fails: accepted exactly when printing (else no effect). Sets paused, clears printing and keeps the position for resume. Writes nothing and leaves the log and the send slot alone |
| Lifecycle.FinishPrint | Printrun/printcore.py:410-420 | when the print loop ends, the sent-line log is emptied and the end callback is raised, nothing else |
| Lifecycle.Pause | Printrun/printcore.py:309-331 | `pause` from another thread: accepted exactly when printing (else no effect). Sets paused, clears printing and keeps the position. The joined print thread's last `_sendnext` releases the slot when a transport is open. Its epilogue empties the log and raises the end callback. Nothing is written |
| Lifecycle.ResumeCommands | Printrun/printcore.py:338-355 | `G90`, then `G1 X.. Y..` with ` F<xy>` only when an XY feed rate is set, then `G1 Z..` with ` F<z>` only when a Z feed rate is set, then `G92 E..`, then `G91` exactly when the snapshot was relative, then `G1 F..` last: five or six commands |
| Lifecycle.SendAllNow | Printrun/printcore.py:338-355 | a run of `send_now` calls: offline nothing happens; while printing the commands join the priority queue in order; when idle they are written in order, unframed |
| Lifecycle.Resume | Printrun/printcore.py:335-359 | accepted exactly when paused (else no effect). On an idle, connected, online engine it writes the resume commands in order, unframed; while printing they go to the priority queue. Afterwards the engine is printing and unpaused. Only the priority queue (while printing) and the send slot (claimed when the idle writes use the default settle period) change besides those two flags |
| Lifecycle.PauseThenResume | Printrun/printcore.py:309-359 | pausing then resuming a running print raises the end callback. It writes exactly the resume commands for the captured position and returns to printing. Line number, cursor, priority queue and `resendfrom` are unchanged. The engine stays connected and online, the log is empty, and the send slot is held exactly when a default settle period applies |
| Lifecycle.SendNow | Printrun/printcore.py:383-401 | rejected offline. While printing the command is appended to the priority queue and nothing is written. When idle it is written unframed and unlogged; the slot is released to the next acknowledgment only when a settle period applies |
| Lifecycle.Send | Printrun/printcore.py:361-381 | rejected offline. While printing the command is appended to the document. When idle it is framed with the current line number, logged if it does not hold `M110` (otherwise the log is unchanged), and written as a frame the receiver accepts as that number. The line number advances by one |
| Lifecycle.SendKeepsInv | Printrun/printcore.py:361-381 | `send` keeps `Inv`: whatever it logs is an intact frame under its own number |
| Lifecycle.Disconnect | Printrun/printcore.py:93-107 | closes the transport and clears online and printing. With a transport open, the joined read thread's last statement (`Printrun/printcore.py:267`) releases the send slot; otherwise the slot is unchanged. Nothing else changes, and `Inv` is kept |
| Lifecycle.DisconnectIdempotent | Printrun/printcore.py:93-107 | disconnecting twice is the same as disconnecting once |
| Scheduler.Replay | Printrun/printcore.py:440-443 | a pending resend writes the logged frame verbatim (not re-framed) and advances `resendfrom` by one, nothing else; a number missing from the log is the `KeyError` outcome |
| Scheduler.PopPriority | Printrun/printcore.py:444-447 | the head of the priority queue is removed and written unframed; nothing else changes |
| Scheduler.LayerRunTracksLayer | Printrun/printcore.py:448-454 | after the cursor moves from i to j, every callback raised is a layer change, and the last layer reported is the layer of line j-1. If none was reported, the layer of line i-1 is |
| Scheduler.LayerRunIncreases | Printrun/printcore.py:448-454 | for a document whose layer numbers never decrease, the layers reported while the cursor moves from i to j strictly increase and lie above the layer of line i-1 and up to that of line j-1, so each new layer is announced once |
| Scheduler.RunHostCommand | Printrun/printcore.py:457-460 | a `;@` line writes nothing and advances the cursor by one. `;@pause` pauses the engine and stores the captured position, changing nothing else; any other host command changes nothing else (in the source as written) |
| Scheduler.SendLine | Printrun/printcore.py:462-471 | the text before the first `;` is framed with the current line number and logged if it does not hold `M110` (otherwise the log is unchanged). The line number advances by one. An empty remainder writes nothing and releases the send slot. The cursor advances by exactly one either way, and no other field changes |
| Scheduler.Advance | Printrun/printcore.py:448-471 | a document turn runs a host command (never transmitted) or sends an ordinary line, raising the layer callback as described, and keeps the cursor within the document |
| Scheduler.EndJob | Printrun/printcore.py:472-478 | printing stops and the slot is released. Unless paused, the cursor and the numbering restart at 0 and the unlogged reset frame is written. When paused the counters are untouched |
| Scheduler.TakeTurn | Printrun/printcore.py:431-478 | a turn fails only when it looks up a pending resend the log does not hold. The failure names that line, and the thread ends still printing with the send slot claimed. A completed turn keeps `Inv`. A completed turn that proceeded leaves `resendfrom` at -1 or between 1 and the line number |
| Scheduler.TakeTurnBranches | Printrun/printcore.py:431-478 | disconnected: nothing happens. Waiting for an acknowledgment: no change. Not in a state to print: only releases the slot. Otherwise exactly one branch runs, in priority order: replay a pending resend, pop the priority queue, advance the document, or end the job |
| Scheduler.PlainHostCommandTurn | Printrun/printcore.py:448-460 | a turn at a host command other than a pause writes nothing, clears `resendfrom`, moves the cursor past the command, and leaves the slot claimed or released as the host-command handling says |
| Scheduler.FlagOnlyAtHostCommand | Printrun/printcore.py:457-460 | away from a host command other than a pause, the source's turn and the corrected turn are the same |
| Scheduler.SendNextAsWritten | Printrun/printcore.py:457-460 | a turn at a host command other than a pause writes nothing and keeps printing but leaves the send slot claimed |
| Scheduler.SendNextCorrected | Printrun/printcore.py:431-478 | corrected turn: a turn that writes nothing and keeps printing always leaves the send slot released, so the print thread cannot wait for an acknowledgment that no written line will produce |
| Scheduler.CorrectionOnlyReleasesSlot | Printrun/printcore.py:457-460 | the corrected turn equals the source's turn everywhere except at a host command other than a pause, where it differs only by releasing the send slot |
| Scheduler.ReplayTurn | Printrun/printcore.py:440-443 | one acknowledged turn with a resend pending writes the logged frame and advances `resendfrom` by one |
| Scheduler.LogRangeReadsLog | Printrun/printcore.py:440-443 | the i-th frame of a replayed range is the logged frame numbered `from + i` |
| Scheduler.ResendReplaysLog | Printrun/printcore.py:440-443 | after a resend request for line k, the next n acknowledged turns write the logged frames k, k+1, ..., k+n-1 verbatim and in order, and move only `resendfrom` and the send slot |
| Scheduler.ResendEndsWhenCaughtUp | Printrun/printcore.py:440-444 | once the replay reaches the line counter, the next turn resets `resendfrom` to -1 |
| Scheduler.PriorityTurn | Printrun/printcore.py:444-447 | one acknowledged turn with no resend pending and a non-empty priority queue writes the head of the queue and pops it |
| Scheduler.PriorityQueueDrainsFirst | Printrun/printcore.py:444-447 | with no resend pending, the next n acknowledged turns write the first n priority commands in order, unframed, and neither the cursor nor the line number moves |
| Scheduler.LineNumberAdvancesByFrames | Printrun/printcore.py:462-478 | a turn keeps the line number, or advances it by exactly one while writing a frame numbered with the old value, or resets it to 0 when the job ends. When it advances, exactly one line is written: a frame the receiver accepts as the old number |
| Scheduler.StallExampleAtHostCommand | Printrun/printcore.py:457-460 | a print whose next document line is `;@beep` reaches a host command other than a pause |
| Scheduler.HostCommandStallsAsWritten | Printrun/printcore.py:457-460 | at any host command other than a pause, the source's turn writes nothing and leaves the slot claimed, and its next turn only waits |
| Scheduler.HostCommandReleasesSlot | Printrun/printcore.py:457-471 | at the same point the corrected turn writes nothing, moves past the command and releases the slot, so the next turn proceeds |
| Scheduler.SecondLineIsSent | Printrun/printcore.py:462-471 | in the `;@beep` example, the turn after the corrected host-command turn writes the following line as a frame accepted as line 0 |
| Scheduler.StartBeyondDocumentEnds | Printrun/printcore.py:472-478 | a start cursor beyond the document leaves `Inv`. The first acknowledged turn ends the job with the cursor back at 0 and restores `Inv` |
| Scheduler.PauseJoinsLastTurn | Printrun/printcore.py:408-420 | `pause` from another thread equals the in-thread pause, followed by one more turn of the source's `_sendnext` (which then writes nothing), followed by the `_print` epilogue |
| Scheduler.ResendAfterPauseMisses | Printrun/printcore.py:440-441 | after a pause and a resume, a resend request for any line sent before the pause makes the source's next turn miss the log (the `KeyError`) |
| Listener.NormalizeResend | Printrun/printcore.py:256 | after rewriting `N:`, `N` and `:` to spaces, neither `N` nor `:` remains |
| Listener.FirstSome | Printrun/printcore.py:258-264 | the index picked holds a parsed value |
| Listener.FirstSomeIsFirst | Printrun/printcore.py:258-264 | no value before the picked index parsed, and none parsed at all when nothing is picked |
| Listener.FirstNumber | Printrun/printcore.py:258-264 | the word picked is one `int()` accepts |
| Listener.FirstNumberIsFirst | Printrun/printcore.py:258-264 | no earlier word parses, and no word parses at all when none is picked |
| Listener.SecondWordFirstNumber | Printrun/printcore.py:258-264 | when the first word does not parse and the second does, the second is picked |
| Listener.ResendTarget | Printrun/printcore.py:255-264 | the number a resend request names is the value of the first word of the rewritten line that `int()` accepts; there is none exactly when no word parses |
| Listener.TeacupResend | Printrun/printcore.py:253-264 | `rs N2 Expected checksum 67` names line 2 |
| Listener.ResendColonForm | Printrun/printcore.py:255-264 | `Resend: <n>` names line n, for every n |
| Listener.OnLine | Printrun/printcore.py:236-266 | `DEBUG_` lines change nothing. Otherwise the slot is released exactly by a greeting, an `ok` or a resend request. A resend request sets `resendfrom` to the number it names, or keeps it when it names none. The temperature callback fires exactly for `ok` lines holding `T:`, and the error callback exactly for `Error` lines. Only `clear` and `resendfrom` change |
| Listener.ResendRequestRewinds | Printrun/printcore.py:255-266 | receiving `Resend: <n>` sets `resendfrom` to n and releases the slot, nothing else |
| Listener.ReadReplies | Printrun/printcore.py:211-227 | the inner handshake loop reports a greeting only at the first read that is a greeting or `ok`. When it gives up or runs out of reads, no read it used was an acknowledgment, so it skips none |
| Listener.ReadRepliesGivesUpAsSource | Printrun/printcore.py:211-221 | the inner loop gives up only at a failed read, or at a timed-out read that completes five in a row, counting the `empty_lines` run. Every earlier read succeeded and left the run below five |
| Listener.AwaitOnline | Printrun/printcore.py:207-228 | the handshake uses no more reads than it is given, uses them all when it does not come online, and writes a query exactly when there is something to read |
| Listener.AwaitOnlineIffGreeting | Printrun/printcore.py:207-228 | the handshake comes online exactly when some read is a greeting or `ok` |
| Listener.AwaitOnlineStopsAtGreeting | Printrun/printcore.py:215-227 | a successful handshake stops right after the first greeting or `ok` |
| Listener.AwaitOnlineOnlyQueries | Printrun/printcore.py:207-213 | every line the handshake writes is `M105` |
| Listener.FourSilentReadsThenOk | Printrun/printcore.py:219-227 | four timed-out reads followed by `ok` bring the engine online after a single query |
| Listener.FiveSilentReadsRequery | Printrun/printcore.py:219-221 | five timed-out reads in a row make the handshake write `M105` again before the `ok` is read |
| Listener.FailedReadRequeries | Printrun/printcore.py:211-213 | a failed read ends only the inner loop: `M105` is written again and a later greeting still brings the engine online |
| Listener.Listen | Printrun/printcore.py:236-267 | the online read loop writes nothing, changes only `clear` and `resendfrom`, ends with the slot released, and keeps `Inv` |
| Listener.ListenThread | Printrun/printcore.py:230-267 | the engine ends online exactly when it was online already, or it was not printing and some read acknowledged. Counters, log, queues and the printing flag are untouched. Only `M105` is written. The slot ends released |
| Target.Classify | Printrun/printcore.py:121-132 | a TCP target is the text before the only `:` (matching the host pattern) with a port `int()` reads in 1..65535 after it; every other text is a serial device path, unchanged |
| Target.ClassifyTcp | Printrun/printcore.py:123-130 | conversely, a matching host and a port text `int()` reads in 1..65535, joined by a single `:`, always name that TCP endpoint |
| Target.ClassifyEndpoint | Printrun/printcore.py:123-130 | `host + ":" + str(p)` for a matching host and p in 1..65535 is read back as TCP endpoint (host, p) |
| Target.ClassifyDevice | Printrun/printcore.py:122-123 | a text without `:` is a serial device path |
| Target.ClassifyOutOfRange | Printrun/printcore.py:128-130 | a port number outside 1..65535 makes the whole text a serial device path |
| Target.DottedQuadIsHostname | Printrun/printcore.py:121 | every dotted-quad address also matches the host-name alternative of the pattern |
| Text.ParseIntToText | Printrun/printcore.py:260 | `int(str(n)) == n` for every integer, which the frame reading and the resend parsing rely on |
| Text.SplitJoin | Printrun/printcore.py:257 | `split()` undoes joining non-empty, whitespace-free words with single spaces |

## Left out

- Serial and socket I/O are not modelled: opening, `readline`, `write` and `flush`, `reset` (DTR toggling), and the stty `-hup` control. Writes are the `out` sequence of a `Step`; reads are an input sequence.
- Threads, the `locked` decorator, `Thread` start and the `time.sleep` busy-waits are not modelled. Each operation is one atomic step. A join is modelled by running the joined thread's remaining statements inside the call.
- Lifecycle.StartPrint: `startprint` accepts any start index (`Printrun/printcore.py:283`). A cursor beyond the document leaves `Inv`, so `Inv` holds only for starts within the document. The first acknowledged turn then ends the job and resets the cursor to 0, which restores `Inv` (`Scheduler.StartBeyondDocumentEnds`).
- Engine.Inv: `resendfrom` is not bounded by `Inv`. A resend request may name any integer (`Printrun/printcore.py:260-261`), and the reader stores it as it comes. Only a turn that proceeds bounds it again (`Scheduler.TakeTurn`).
- Lifecycle.Pause: assumes the print thread is waiting for an acknowledgment inside `_sendnext` when printing is cleared. A thread caught between two turns leaves `clear` as it was. One caught past its wait finishes writing its line first.
- Lifecycle.Disconnect: assumes a read thread is running whenever a transport is open. The print thread is not joined: it stops on its own once printing is cleared, and its epilogue (`Lifecycle.FinishPrint`) is a separate step.
- Scheduler.TakeTurn: the wait for an acknowledgment becomes a turn that changes nothing, instead of a blocking loop.
- `connect` is modelled only up to the choice of transport (`Target.Classify`). Opening the transport and starting the read thread are I/O.
- Callbacks become event tags. `sendcb`, `recvcb` and `printsendcb` are left out because they carry no state. The `sent` list, the `log` deque and the `loud` printing are diagnostics.
- `analyzer.Analyze` and the float arithmetic of the pause snapshot are external. `str()` of floats is external too. Positions and feed rates are opaque text.
- Scheduler.RunHostCommand: the branch that forwards `;@pause` to a GUI (`pronterface.pause`) is not modelled; the model always takes the direct `pause()` branch.
- Lifecycle.Send: while printing, the source appends the command to a parsed G-code object, which assigns it a layer. The model appends a `DocLine` on the last layer; the parser is not part of this model.
- Listener.ListenThread: whether the thread may continue (`_listen_can_continue`) is modelled as reads remaining. A failed read during the handshake re-queries; the stop request is the end of the input.
- Text.ParseInt: Python 2 `int()` also accepts whitespace between the sign and the digits; the model rejects it.
- `runSmallScript`, the command-line entry point, `pronterface.py` and `graph.py` are not part of this model.

## Findings

| source | as written | input that shows it | evidently intended | confidence | as-written member | corrected member |
|---|---|---|---|---|---|---|
| Printrun/printcore.py:457-460 | a host command other than `;@pause` advances the cursor and returns with `clear` still False, having written nothing | a print whose next document line is `;@beep` (`Scheduler.StallExampleAtHostCommand`) | release the send slot as the empty-line branch (`Printrun/printcore.py:469-470`) does, since no acknowledgment will arrive for a line that was never written | medium, not executed | Scheduler.HostCommandStallsAsWritten | Scheduler.HostCommandReleasesSlot |

=== FILE: bits.dfy ===
/**
 * Bitwise exclusive or on natural numbers, as Python's `^` computes it on
 * non-negative integers: bit by bit from the least significant end.
 */
module Bits {
  function Xor(a: nat, b: nat): nat
    decreases a
  {
    if a == 0 then b
    else if b == 0 then a
    else 2 * Xor(a / 2, b / 2) + (if a % 2 == b % 2 then 0 else 1)
  }

  function Pow2(k: nat): (p: nat)
    ensures p >= 1
  {
    if k == 0 then 1 else 2 * Pow2(k - 1)
  }

  /** The lowest bit of `a ^ b` is the XOR of the lowest bits; the rest is the XOR of the rest. */
  lemma XorHalves(a: nat, b: nat)
    ensures Xor(a, b) / 2 == Xor(a / 2, b / 2)
    ensures Xor(a, b) % 2 == (if a % 2 == b % 2 then 0 else 1)
  {
  }

  lemma XorZero(a: nat)
    ensures Xor(a, 0) == a && Xor(0, a) == a
  {
  }

  lemma {:induction false} XorSelf(a: nat)
    ensures Xor(a, a) == 0
    decreases a
  {
    if a > 0 {
      XorSelf(a / 2);
    }
  }

  lemma {:induction false} XorCommutes(a: nat, b: nat)
    ensures Xor(a, b) == Xor(b, a)
    decreases a
  {
    if a > 0 && b > 0 {
      XorCommutes(a / 2, b / 2);
    }
  }

  /** Two numbers with the same halves and the same lowest bit are equal. */
  lemma SameBits(x: nat, y: nat)
    requires x / 2 == y / 2 && x % 2 == y % 2
    ensures x == y
  {
  }

  lemma {:induction false} XorAssociates(a: nat, b: nat, c: nat)
    ensures Xor(Xor(a, b), c) == Xor(a, Xor(b, c))
    decreases a + b + c
  {
    if a + b + c > 0 {
      XorHalves(Xor(a, b), c);
      XorHalves(a, b);
      XorHalves(a, Xor(b, c));
      XorHalves(b, c);
      XorAssociates(a / 2, b / 2, c / 2);
      SameBits(Xor(Xor(a, b), c), Xor(a, Xor(b, c)));
    }
  }

  /** XOR never sets a bit above the operands' highest. */
  lemma {:induction false} XorBelow(a: nat, b: nat, k: nat)
    requires a < Pow2(k) && b < Pow2(k)
    ensures Xor(a, b) < Pow2(k)
    decreases k
  {
    if a > 0 && b > 0 {
      XorBelow(a / 2, b / 2, k - 1);
    }
  }

  /** Applying the same XOR on both sides cannot make two different values equal. */
  lemma XorCancels(a: nat, x: nat, y: nat, b: nat)
    requires x != y
    ensures Xor(Xor(a, x), b) != Xor(Xor(a, y), b)
  {
    if Xor(Xor(a, x), b) == Xor(Xor(a, y), b) {
      Unxor(Xor(a, x), b);
      Unxor(Xor(a, y), b);
      XorCommutes(a, x);
      XorCommutes(a, y);
      Unxor(x, a);
      Unxor(y, a);
    }
  }

  /** XOR with the same value twice is the identity. */
  lemma Unxor(v: nat, b: nat)
    ensures Xor(Xor(v, b), b) == v
  {
    XorAssociates(v, b, b);
    XorSelf(b);
    XorZero(v);
  }
}

=== FILE: engine.dfy ===
/**
 * The state of one printcore engine and its one transmission primitive,
 * `_send`. Every other operation is a pure function from an engine state to
 * a `Step`: the next state, the lines written to the printer, in order, and
 * the callbacks raised, as tags.
 */
module Engine {
  import opened Wrappers
  import opened Text
  import opened Framer

  /** One entry of the print document: its layer and its raw G-code text. */
  datatype DocLine = DocLine(layer: int, raw: Text)

  /** The position captured at pause time, as the analyzer renders it. */
  datatype Position = Position(x: Text, y: Text, z: Text, e: Text, f: Text, relative: bool)

  /** Callbacks, recorded as tags instead of being invoked. */
  datatype Event =
    | Online
    | LayerChanged(layer: int)
    | Temperature(line: Text)
    | FirmwareError(line: Text)
    | PrintStarted(resuming: bool)
    | PrintEnded

  datatype State = State(
    connected: bool,             // `printer` holds an open transport
    online: bool,                // the firmware has answered the greeting query
    printing: bool,
    paused: bool,
    clear: bool,                 // clear to send: the previous line was acknowledged
    lineno: nat,                 // number of the next framed line
    queueindex: nat,             // cursor into `mainqueue`
    resendfrom: int,             // first line the firmware asked for again, -1 for none
    sentlines: map<int, Text>,   // every framed line sent, by number
    priqueue: seq<Text>,         // unframed commands sent ahead of the document
    mainqueue: seq<DocLine>,     // the document being printed
    snapshot: Option<Position>,  // `pauseX` .. `pauseRelative`, once a pause happened
    wait: int,                   // default settle period of `send` and `send_now`
    xyFeedrate: Option<Text>,
    zFeedrate: Option<Text>)

  /** The result of one operation: next state, lines written, callbacks raised. */
  datatype Step = Step(state: State, out: seq<Text>, events: seq<Event>)

  /** A freshly constructed engine, before any connection. */
  function Initial(): (s: State)
    ensures !s.connected && !s.online && !s.printing && !s.paused && !s.clear
    ensures s.lineno == 0 && s.queueindex == 0 && s.resendfrom == -1
    ensures s.sentlines == map[] && s.priqueue == [] && s.snapshot.None?
    ensures Inv(s)
  {
    State(false, false, false, false, false, 0, 0, -1, map[], [], [], None, 0, None, None)
  }

  /** Every logged frame is a well-formed frame that a receiver reads as its own number. */
  ghost predicate LogWellFormed(s: State) {
    forall k :: k in s.sentlines ==> Accepts(s.sentlines[k], k)
  }

  /**
   * The invariant every operation keeps: the cursor stays inside the
   * document, the log holds only intact frames under their own numbers, and
   * a paused engine has a position to resume from.
   */
  ghost predicate Inv(s: State) {
    && s.queueindex <= |s.mainqueue|
    && LogWellFormed(s)
    && (s.paused ==> s.snapshot.Some?)
  }

  /** `_send` records a framed line in the log unless it mentions the numbering reset. */
  predicate Logged(frame: Text) {
    !Contains(frame, "M110")
  }

  /**
   * The framing branch of `_send`: the frame is logged under its number
   * unless it mentions the numbering reset, and written when a transport is open.
   */
  function SendFramed(s: State, command: Text, lineno: int): (r: Step)
    ensures r.events == []
    ensures r.state == s.(sentlines := r.state.sentlines)
    ensures r.out == (if s.connected then [Frame(lineno, command)] else [])
    ensures Accepts(Frame(lineno, command), lineno) && Unframe(Frame(lineno, command)).value.command == command
    ensures r.state.sentlines == (if Logged(Frame(lineno, command)) then s.sentlines[lineno := Frame(lineno, command)]
                                  else s.sentlines)
    ensures LogWellFormed(s) ==> LogWellFormed(r.state)
  {
    var text := Frame(lineno, command);
    FrameRoundTrip(lineno, command);
    var log := if Logged(text) then s.sentlines[lineno := text] else s.sentlines;
    Step(s.(sentlines := log), if s.connected then [text] else [], [])
  }

  /**
   * `_send(command, lineno, calcchecksum)`: frames the command when asked,
   * logs the frame, and writes the line when a transport is open.
   */
  function Transmit(s: State, command: Text, lineno: int, calcchecksum: bool): (r: Step)
    ensures r.events == []
    ensures r.state == s.(sentlines := r.state.sentlines)
    ensures |r.out| == (if s.connected then 1 else 0)
    ensures !calcchecksum ==> r.state.sentlines == s.sentlines && (s.connected ==> r.out[0] == command)
    ensures calcchecksum ==> forall i :: 0 <= i < |r.out| ==>
              Accepts(r.out[i], lineno) && Unframe(r.out[i]).value.command == command
    ensures calcchecksum && Logged(Frame(lineno, command)) ==>
              r.state.sentlines == s.sentlines[lineno := Frame(lineno, command)]
    ensures calcchecksum && !Logged(Frame(lineno, command)) ==> r.state.sentlines == s.sentlines
    ensures LogWellFormed(s) ==> LogWellFormed(r.state)
  {
    if calcchecksum then SendFramed(s, command, lineno)
    else Step(s, if s.connected then [command] else [], [])
  }

  /** The numbering reset `N-1 M110*..` is never logged. */
  lemma ResetNotLogged()
    ensures !Logged(Frame(-1, "M110"))
  {
    var p := Prefix(-1, "M110");
    assert Frame(-1, "M110") == "N" + IntToText(-1) + " " + "M110" + ("*" + NatToText(Checksum(p)));
    ContainsInfix("N" + IntToText(-1) + " ", "M110", "*" + NatToText(Checksum(p)));
  }
}

=== FILE: framer.dfy ===
/**
 * Line framing: `N<lineno> <command>*<checksum>`, where the checksum is the
 * XOR of the bytes before the `*` (printcore's `_checksum` and the framing
 * branch of `_send`), together with the firmware-side reading of a frame
 * that the properties are stated against.
 */
module Framer {
  import opened Wrappers
  import opened Text
  import opened Bits

  /** XOR of the byte values, folded left to right as `reduce` does. */
  function XorBytes(s: Text): nat
    decreases |s|
  {
    if |s| == 0 then 0 else Xor(XorBytes(s[..|s| - 1]), s[|s| - 1] as int)
  }

  /** Byte values have eight bits, and so has their XOR. */
  lemma {:induction false} XorBytesBelow(s: Text)
    ensures XorBytes(s) < 256
    decreases |s|
  {
    if |s| > 0 {
      XorBytesBelow(s[..|s| - 1]);
      assert Pow2(8) == 256;
      XorBelow(XorBytes(s[..|s| - 1]), s[|s| - 1] as int, 8);
    }
  }

  /** `_checksum`: `reduce` without an initial value needs a non-empty text. */
  function Checksum(s: Text): (x: nat)
    requires |s| > 0
    ensures x < 256
  {
    XorBytesBelow(s);
    XorBytes(s)
  }

  /** The checksum of a concatenation combines the checksums of the parts. */
  lemma {:induction false} XorConcat(a: Text, b: Text)
    ensures XorBytes(a + b) == Xor(XorBytes(a), XorBytes(b))
    decreases |b|
  {
    if |b| == 0 {
      assert a + b == a;
      XorZero(XorBytes(a));
    } else {
      var b' := b[..|b| - 1];
      assert (a + b)[..|a + b| - 1] == a + b';
      XorConcat(a, b');
      XorAssociates(XorBytes(a), XorBytes(b'), b[|b| - 1] as int);
    }
  }

  /** The checksum splits around any one byte. */
  lemma XorAround(s: Text, i: nat)
    requires i < |s|
    ensures XorBytes(s) == Xor(Xor(XorBytes(s[..i]), s[i] as int), XorBytes(s[i + 1..]))
  {
    var head := s[..i] + [s[i]];
    SplitAround(s, i);
    XorConcat(head, s[i + 1..]);
    XorSnoc(s[..i], s[i]);
  }

  lemma SplitAround(s: Text, i: nat)
    requires i < |s|
    ensures s == (s[..i] + [s[i]]) + s[i + 1..]
  {
  }

  /** Appending one byte XORs its value into the checksum. */
  lemma XorSnoc(s: Text, b: Byte)
    ensures XorBytes(s + [b]) == Xor(XorBytes(s), b as int)
  {
    assert (s + [b])[..|s|] == s;
  }

  /** Corrupting any single byte of a frame's prefix changes its checksum. */
  lemma ChecksumDetectsByteChange(s: Text, t: Text, i: nat)
    requires |s| == |t| && i < |s|
    requires s[i] != t[i]
    requires forall j :: 0 <= j < |s| && j != i ==> s[j] == t[j]
    ensures Checksum(s) != Checksum(t)
  {
    SameAround(s, t, i);
    XorAround(s, i);
    XorAround(t, i);
    XorCancels(XorBytes(s[..i]), s[i] as int, t[i] as int, XorBytes(s[i + 1..]));
  }

  lemma SameAround(s: Text, t: Text, i: nat)
    requires |s| == |t| && i < |s|
    requires forall j :: 0 <= j < |s| && j != i ==> s[j] == t[j]
    ensures s[..i] == t[..i] && s[i + 1..] == t[i + 1..]
  {
    assert s[..i] == t[..i];
    assert s[i + 1..] == t[i + 1..];
  }

  /** The text the checksum covers: `"N" + str(lineno) + " " + command`. */
  function Prefix(lineno: int, command: Text): Text {
    "N" + IntToText(lineno) + " " + command
  }

  /** The framed text `_send` transmits when `calcchecksum` is set. */
  function Frame(lineno: int, command: Text): Text {
    var p := Prefix(lineno, command);
    p + "*" + NatToText(Checksum(p))
  }

  /** What a receiver reads out of a frame. */
  datatype FrameParts = FrameParts(lineno: int, command: Text, covered: Text, checksum: nat)

  /**
   * A receiver's reading of a line: the checksum follows the last `*`, the
   * line number runs from the leading `N` to the first space, the command
   * is the rest; `None` when the line is not shaped like a frame.
   */
  function Unframe(f: Text): (r: Option<FrameParts>)
    ensures r.Some? ==> |r.value.covered| > 0 && r.value.covered < f
  {
    match LastIndexOf(f, '*')
    case None => None
    case Some(star) =>
      var body := f[..star];
      var digits := f[star + 1..];
      if !IsNumeral(digits) || |body| == 0 || body[0] != 'N' then None
      else
        var num := BeforeFirst(body[1..], ' ');
        if |num| == |body| - 1 then None
        else
          match ParseInt(num)
          case None => None
          case Some(n) => Some(FrameParts(n, body[|num| + 2..], body, NumeralValue(digits)))
  }

  /** A receiver accepts `f` as line `lineno` when it reads and its checksum matches. */
  predicate Accepts(f: Text, lineno: int) {
    var r := Unframe(f);
    r.Some? && r.value.lineno == lineno && Checksum(r.value.covered) == r.value.checksum
  }

  /**
   * Round trip: reading a frame back yields its line number, its command and
   * the checksum of the prefix, and recomputing the XOR over that prefix
   * reproduces the transmitted checksum.
   */
  lemma FrameRoundTrip(lineno: int, command: Text)
    ensures Unframe(Frame(lineno, command))
         == Some(FrameParts(lineno, command, Prefix(lineno, command), Checksum(Prefix(lineno, command))))
    ensures Accepts(Frame(lineno, command), lineno)
  {
    var p := Prefix(lineno, command);
    var x := Checksum(p);
    FrameSeparator(lineno, command);
    PrefixFields(lineno, command);
    NatToTextValue(x);
    ParseIntToText(lineno);
  }

  /** The checksum separator of a frame is the `*` right after the prefix. */
  lemma FrameSeparator(lineno: int, command: Text)
    ensures var p := Prefix(lineno, command);
            var f := Frame(lineno, command);
            && LastIndexOf(f, '*') == Some(|p|)
            && f[..|p|] == p
            && f[|p| + 1..] == NatToText(Checksum(p))
  {
    var p := Prefix(lineno, command);
    var digits := NatToText(Checksum(p));
    var f := Frame(lineno, command);
    assert f == p + ['*'] + digits;
    assert '*' !in digits by {
      assert forall i :: 0 <= i < |digits| ==> IsDigit(digits[i]);
    }
    LastIndexOfAt(p, '*', digits);
  }

  /** The line number of a prefix ends at its first space; the command follows. */
  lemma PrefixFields(lineno: int, command: Text)
    ensures var p := Prefix(lineno, command);
            var num := IntToText(lineno);
            && |p| > 0 && p[0] == 'N'
            && BeforeFirst(p[1..], ' ') == num
            && |num| + 1 < |p|
            && p[|num| + 2..] == command
  {
    var num := IntToText(lineno);
    var p := Prefix(lineno, command);
    IntToTextBytes(lineno);
    assert ' ' !in num by {
      assert forall i :: 0 <= i < |num| ==> !IsSpace(num[i]);
    }
    assert p[1..] == num + (" " + command);
    BeforeFirstAt(num, ' ', " " + command);
    assert p[|num| + 2..] == command;
  }
}

=== FILE: lifecycle.dfy ===
/**
 * The public operations of printcore that change the print state from the
 * caller's thread: `startprint`, `pause`, `resume`, `send`, `send_now` and
 * `disconnect`. Busy-waits and thread start are not part of this model; a
 * join is modelled as the joined thread's remaining statements.
 */
module Lifecycle {
  import opened Wrappers
  import opened Text
  import opened Framer
  import opened Engine

  /** Whether the call was taken up (`False` or the offline message otherwise), and its effect. */
  datatype Reply = Reply(accepted: bool, step: Step)

  /** No effect at all. */
  function Refused(s: State): Reply {
    Reply(false, Step(s, [], []))
  }

  /** The settle period a direct send uses: the call's own, else the engine default. */
  function EffectiveWait(s: State, wait: int): int {
    if wait == 0 && s.wait > 0 then s.wait else wait
  }

  /** The layer a line appended to the document joins: the last one. */
  function LastLayer(doc: seq<DocLine>): int {
    if |doc| == 0 then 0 else doc[|doc| - 1].layer
  }

  /**
   * `startprint`: refused while printing, offline or without a transport;
   * otherwise installs the document, restarts numbering at 0 after sending
   * the framed reset `N-1 M110`, and (for a non-empty document) claims the
   * send slot for the print thread.
   */
  function StartPrint(s: State, doc: seq<DocLine>, startindex: nat): (r: Reply)
    ensures r.accepted <==> !s.printing && s.online && s.connected
    ensures !r.accepted ==> r == Refused(s)
    ensures r.accepted ==>
              && r.step.state == s.(printing := true, mainqueue := doc, lineno := 0, queueindex := startindex,
                                    resendfrom := -1, clear := if |doc| == 0 then s.clear else false)
              && r.step.out == [Frame(-1, "M110")]
              && r.step.events == (if |doc| == 0 then [] else [PrintStarted(false)])
  {
    if s.printing || !s.online || !s.connected then Refused(s)
    else
      var s1 := s.(printing := true, mainqueue := doc, lineno := 0, queueindex := startindex, resendfrom := -1);
      var t := Transmit(s1, "M110", -1, true);
      ResetWritten(s1);
      var started := if |doc| == 0 then [] else [PrintStarted(false)];
      Reply(true, Step(t.state.(clear := if |doc| == 0 then t.state.clear else false), t.out, started))
  }

  /** A start whose cursor lies inside the new document keeps the engine invariant. */
  lemma StartPrintKeepsInv(s: State, doc: seq<DocLine>, startindex: nat)
    requires Inv(s) && startindex <= |doc|
    ensures Inv(StartPrint(s, doc, startindex).step.state)
  {
  }

  /** Sending the framed numbering reset writes it and leaves the log alone. */
  lemma ResetWritten(s: State)
    ensures Transmit(s, "M110", -1, true) == Step(s, if s.connected then [Frame(-1, "M110")] else [], [])
  {
    ResetNotLogged();
  }

  /**
   * The part of `pause` that takes effect on the calling thread: printing
   * stops, the engine is marked paused and the analyzer's position is kept
   * for `resume`. Called from the print thread itself (a `;@pause` host
   * command), joining that thread fails and this is all `pause` does.
   */
  function PauseInThread(s: State, pos: Position): (r: Reply)
    ensures r.accepted <==> s.printing
    ensures !r.accepted ==> r == Refused(s)
    ensures r.accepted ==>
              && r.step.state == s.(paused := true, printing := false, snapshot := Some(pos))
              && r.step.out == [] && r.step.events == []
    ensures Inv(s) ==> Inv(r.step.state)
  {
    if !s.printing then Refused(s)
    else Reply(true, Step(s.(paused := true, printing := false, snapshot := Some(pos)), [], []))
  }

  /** The epilogue of `_print`: the sent-line log is emptied and the end callback raised. */
  function FinishPrint(s: State): (r: Step)
    ensures r.state == s.(sentlines := map[])
    ensures r.out == [] && r.events == [PrintEnded]
    ensures Inv(s) ==> Inv(r.state)
  {
    Step(s.(sentlines := map[]), [], [PrintEnded])
  }

  /**
   * `pause` called from another thread: after the flags change, the call
   * joins the print thread. That thread's pending `_sendnext` sees printing
   * cleared and releases the send slot (when a transport is open), its loop
   * ends, and its epilogue empties the log and raises the end callback, all
   * before `pause` returns.
   */
  function Pause(s: State, pos: Position): (r: Reply)
    ensures r.accepted <==> s.printing
    ensures !r.accepted ==> r == Refused(s)
    ensures r.accepted ==>
              && r.step.state.paused && !r.step.state.printing && r.step.state.snapshot == Some(pos)
              && r.step.state.sentlines == map[]
              && r.step.state.clear == (s.clear || s.connected)
              && r.step.state == s.(paused := true, printing := false, snapshot := Some(pos),
                                    clear := r.step.state.clear, sentlines := map[])
              && r.step.out == [] && r.step.events == [PrintEnded]
    ensures Inv(s) ==> Inv(r.step.state)
  {
    if !s.printing then Refused(s)
    else
      var halted := PauseInThread(s, pos).step.state;
      var polled := if halted.connected then halted.(clear := true) else halted;
      Reply(true, FinishPrint(polled))
  }

  /** `" F<rate>"` when a feed-rate override is configured, nothing otherwise. */
  function FeedSuffix(rate: Option<Text>): Text {
    match rate
    case Some(v) => " F" + v
    case None => ""
  }

  /** The commands `resume` issues to restore the captured position and modes. */
  function ResumeCommands(p: Position, xyRate: Option<Text>, zRate: Option<Text>): (r: seq<Text>)
    ensures |r| == (if p.relative then 6 else 5)
    ensures r[0] == "G90" && r[|r| - 1] == "G1 F" + p.f
    ensures r[1] == "G1 X" + p.x + " Y" + p.y + FeedSuffix(xyRate)
    ensures r[2] == "G1 Z" + p.z + FeedSuffix(zRate)
    ensures r[3] == "G92 E" + p.e
    ensures p.relative <==> r[4] == "G91"
  {
    ["G90", "G1 X" + p.x + " Y" + p.y + FeedSuffix(xyRate), "G1 Z" + p.z + FeedSuffix(zRate), "G92 E" + p.e]
    + (if p.relative then ["G91"] else [])
    + ["G1 F" + p.f]
  }

  /**
   * `send_now`: refused offline; while printing the command joins the
   * priority queue; otherwise it is written at once, unframed, and the send
   * slot is released only by the next acknowledgment when a settle period
   * applies.
   */
  function SendNow(s: State, command: Text, wait: int): (r: Reply)
    ensures r.accepted <==> s.online
    ensures !r.accepted ==> r == Refused(s)
    ensures r.step.events == []
    ensures s.online && s.printing ==> r.step == Step(s.(priqueue := s.priqueue + [command]), [], [])
    ensures s.online && !s.printing ==>
              && r.step.state == s.(clear := if EffectiveWait(s, wait) > 0 then false else s.clear)
              && r.step.out == (if s.connected then [command] else [])
    ensures Inv(s) ==> Inv(r.step.state)
  {
    if !s.online then Refused(s)
    else if s.printing then Reply(true, Step(s.(priqueue := s.priqueue + [command]), [], []))
    else
      var s1 := if EffectiveWait(s, wait) > 0 then s.(clear := false) else s;
      Reply(true, Transmit(s1, command, 0, false))
  }

  /**
   * `send`: refused offline; while printing the command is appended to the
   * document; otherwise it is framed with the next line number, logged, and
   * written, and the line number advances.
   */
  function Send(s: State, command: Text, wait: int): (r: Reply)
    ensures r.accepted <==> s.online
    ensures !r.accepted ==> r == Refused(s)
    ensures r.step.events == []
    ensures s.online && s.printing ==>
              r.step == Step(s.(mainqueue := s.mainqueue + [DocLine(LastLayer(s.mainqueue), command)]), [], [])
    ensures s.online && !s.printing ==>
              && r.step.state.lineno == s.lineno + 1
              && r.step.state.clear == (if EffectiveWait(s, wait) > 0 then false else s.clear)
              && r.step.state == s.(lineno := s.lineno + 1, clear := r.step.state.clear,
                                    sentlines := r.step.state.sentlines)
              && |r.step.out| == (if s.connected then 1 else 0)
              && (forall i :: 0 <= i < |r.step.out| ==>
                    Accepts(r.step.out[i], s.lineno) && Unframe(r.step.out[i]).value.command == command)
              && (Logged(Frame(s.lineno, command)) ==>
                    r.step.state.sentlines == s.sentlines[s.lineno := Frame(s.lineno, command)])
              && (!Logged(Frame(s.lineno, command)) ==> r.step.state.sentlines == s.sentlines)
  {
    if !s.online then Refused(s)
    else if s.printing then
      Reply(true, Step(s.(mainqueue := s.mainqueue + [DocLine(LastLayer(s.mainqueue), command)]), [], []))
    else
      var s1 := if EffectiveWait(s, wait) > 0 then s.(clear := false) else s;
      var t := Transmit(s1, command, s.lineno, true);
      Reply(true, Step(t.state.(lineno := s.lineno + 1), t.out, []))
  }

  /** `send` keeps the engine invariant: whatever it logs is an intact frame under its own number. */
  lemma SendKeepsInv(s: State, command: Text, wait: int)
    requires Inv(s)
    ensures Inv(Send(s, command, wait).step.state)
  {
  }

  /** `send_now` for each command in turn, with no settle period of the call's own. */
  function SendAllNow(s: State, cmds: seq<Text>): (r: Step)
    ensures r.events == []
    ensures !s.online ==> r == Step(s, [], [])
    ensures s.online && s.printing ==> r == Step(s.(priqueue := s.priqueue + cmds), [], [])
    ensures s.online && !s.printing ==>
              && r.state == s.(clear := if s.wait > 0 && |cmds| > 0 then false else s.clear)
              && r.out == (if s.connected then cmds else [])
    decreases |cmds|
  {
    if |cmds| == 0 then Step(s, [], [])
    else
      var first := SendNow(s, cmds[0], 0).step;
      var rest := SendAllNow(first.state, cmds[1..]);
      assert s.online && s.printing ==> s.priqueue + cmds == s.priqueue + [cmds[0]] + cmds[1..];
      Step(rest.state, first.out + rest.out, first.events + rest.events)
  }

  /**
   * `resume`: refused unless paused; otherwise issues the resume commands
   * through `send_now` and then sets the engine printing again.
   */
  function Resume(s: State): (r: Reply)
    requires s.paused ==> s.snapshot.Some?
    ensures r.accepted <==> s.paused
    ensures !r.accepted ==> r == Refused(s)
    ensures r.accepted ==>
              && r.step.state.printing && !r.step.state.paused
              && r.step.events == [PrintStarted(true)]
              && r.step.state.lineno == s.lineno && r.step.state.queueindex == s.queueindex
              && r.step.state.sentlines == s.sentlines && r.step.state.mainqueue == s.mainqueue
    ensures r.accepted && s.online && !s.printing && s.connected ==>
              r.step.out == ResumeCommands(s.snapshot.value, s.xyFeedrate, s.zFeedrate)
    ensures r.accepted && s.online && s.printing ==>
              && r.step.out == []
              && r.step.state.priqueue == s.priqueue + ResumeCommands(s.snapshot.value, s.xyFeedrate, s.zFeedrate)
    ensures r.accepted && !s.online ==> r.step.out == [] && r.step.state.priqueue == s.priqueue
    ensures r.accepted ==>
              && r.step.state == s.(paused := false, printing := true, priqueue := r.step.state.priqueue,
                                    clear := r.step.state.clear)
              && r.step.state.clear == (if s.online && !s.printing && s.wait > 0 then false else s.clear)
              && (!s.printing ==> r.step.state.priqueue == s.priqueue)
    ensures Inv(s) ==> Inv(r.step.state)
  {
    if !s.paused then Refused(s)
    else
      var t := SendAllNow(s, ResumeCommands(s.snapshot.value, s.xyFeedrate, s.zFeedrate));
      Reply(true, Step(t.state.(paused := false, printing := true), t.out, t.events + [PrintStarted(true)]))
  }

  /**
   * `disconnect`: with a transport open, the read thread is told to stop and
   * joined, and its last act releases the send slot; then the transport is
   * closed and the online and printing flags are cleared.
   */
  function Disconnect(s: State): (r: State)
    ensures !r.connected && !r.online && !r.printing
    ensures r.clear <==> s.clear || s.connected
    ensures r == s.(connected := false, online := false, printing := false, clear := r.clear)
    ensures Inv(s) ==> Inv(r)
  {
    var joined := if s.connected then s.(clear := true) else s;
    joined.(connected := false, online := false, printing := false)
  }

  /** Disconnecting twice is the same as disconnecting once. */
  lemma DisconnectIdempotent(s: State)
    ensures Disconnect(Disconnect(s)) == Disconnect(s)
  {
  }

  /**
   * A pause followed by a resume on a connected, online engine replays the
   * captured position and returns to printing with the counters untouched,
   * but with the log emptied by the joined print thread's epilogue.
   */
  lemma PauseThenResume(s: State, pos: Position)
    requires s.printing && s.online && s.connected
    ensures var p := Pause(s, pos);
            var r := Resume(p.step.state);
            && p.step.events == [PrintEnded]
            && r.accepted
            && r.step.out == ResumeCommands(pos, s.xyFeedrate, s.zFeedrate)
            && r.step.state.printing && !r.step.state.paused
            && r.step.state.lineno == s.lineno && r.step.state.queueindex == s.queueindex
            && r.step.state.sentlines == map[] && r.step.state.priqueue == s.priqueue
            && r.step.state.connected && r.step.state.online
            && r.step.state.resendfrom == s.resendfrom && r.step.state.clear == (s.wait <= 0)
  {
  }
}

=== FILE: listener.dfy ===
/**
 * The read thread, `_listen`: the greeting handshake of
 * `_listen_until_online`, then one state update per received line. Reads are
 * an input sequence: `Some(line)` is a line (`""` when the read timed out),
 * `None` a failed read; the end of the sequence is the thread being told to
 * stop.
 */
module Listener {
  import opened Wrappers
  import opened Text
  import opened Engine

  /** A firmware greeting: printcore's `greetings` list. */
  predicate IsGreeting(line: Text) {
    StartsWith(line, "start") || StartsWith(line, "Grbl ")
  }

  /** A line that releases the send slot: a greeting or an `ok`. */
  predicate IsAck(line: Text) {
    IsGreeting(line) || StartsWith(line, "ok")
  }

  /** A resend request: `resend` in any case, or `rs`, at the start of the line. */
  predicate IsResendRequest(line: Text) {
    StartsWith(Lower(line), "resend") || StartsWith(line, "rs")
  }

  /** `N:`, `N` and `:` each become a space, in that order. */
  function NormalizeResend(line: Text): (r: Text)
    ensures 'N' !in r && ':' !in r
  {
    var a := Replace(line, "N:", " ");
    var b := Replace(a, "N", " ");
    ReplaceByteRemoves(a, 'N', ' ');
    ReplaceKeepsAbsent(b, ":", " ", 'N');
    ReplaceByteRemoves(b, ':', ' ');
    Replace(b, ":", " ")
  }

  /** `int()` applied to every word. */
  function ParseAll(words: seq<Text>): (r: seq<Option<int>>)
    ensures |r| == |words|
  {
    seq(|words|, i requires 0 <= i < |words| => ParseInt(words[i]))
  }

  /** The index of the first parsed value, as the source's pop-and-try loop finds it. */
  function FirstSome(vals: seq<Option<int>>): (r: Option<nat>)
    ensures r.Some? ==> r.value < |vals| && vals[r.value].Some?
    decreases |vals|
  {
    if |vals| == 0 then None
    else if vals[0].Some? then Some(0)
    else
      match FirstSome(vals[1..])
      case None => None
      case Some(i) => Some(i + 1)
  }

  /** No value before the one `FirstSome` picks is present, and none at all when it picks nothing. */
  lemma {:induction false} FirstSomeIsFirst(vals: seq<Option<int>>)
    ensures FirstSome(vals).Some? ==> forall j :: 0 <= j < FirstSome(vals).value ==> vals[j].None?
    ensures FirstSome(vals).None? ==> forall j :: 0 <= j < |vals| ==> vals[j].None?
    decreases |vals|
  {
    if |vals| > 0 && vals[0].None? {
      var rest := vals[1..];
      FirstSomeIsFirst(rest);
      assert forall j :: 1 <= j < |vals| ==> vals[j] == rest[j - 1];
    }
  }

  /** The index of the first word `int()` accepts. */
  function FirstNumber(words: seq<Text>): (r: Option<nat>)
    ensures r.Some? ==> r.value < |words| && ParseInt(words[r.value]).Some?
  {
    var vals := ParseAll(words);
    var r := FirstSome(vals);
    assert r.Some? ==> vals[r.value] == ParseInt(words[r.value]);
    r
  }

  /** No word before the one `FirstNumber` picks parses, and none at all when it picks nothing. */
  lemma FirstNumberIsFirst(words: seq<Text>)
    ensures FirstNumber(words).Some? ==>
              forall j :: 0 <= j < FirstNumber(words).value ==> ParseInt(words[j]).None?
    ensures FirstNumber(words).None? ==> forall j :: 0 <= j < |words| ==> ParseInt(words[j]).None?
  {
    var vals := ParseAll(words);
    FirstSomeIsFirst(vals);
    assert forall j :: 0 <= j < |words| ==> vals[j] == ParseInt(words[j]);
  }

  /** The line number a resend request names: its first word that parses as an integer. */
  function ResendTarget(line: Text): (r: Option<int>)
    ensures var words := Split(NormalizeResend(line));
            && (r.None? <==> forall j :: 0 <= j < |words| ==> ParseInt(words[j]).None?)
            && (r.Some? ==> exists i :: 0 <= i < |words| && ParseInt(words[i]) == r
                                        && forall j :: 0 <= j < i ==> ParseInt(words[j]).None?)
  {
    var words := Split(NormalizeResend(line));
    FirstNumberIsFirst(words);
    match FirstNumber(words)
    case None => None
    case Some(i) => ParseInt(words[i])
  }

  /** A word that starts with neither a sign nor a digit is not a number to `int()`. */
  lemma WordNotNumber(w: Text)
    requires |w| > 0 && NoSpace(w) && !IsDigit(w[0]) && w[0] != '-' && w[0] != '+'
    ensures ParseInt(w).None?
  {
    StripUnpadded(w);
  }

  /** Without an `N` only the colons are rewritten. */
  lemma WithoutN(line: Text)
    requires 'N' !in line
    ensures NormalizeResend(line) == Replace(line, ":", " ")
  {
    ReplaceSkips(line, [], "N:", " ");
    ReplaceSkips(line, [], "N", " ");
    assert line + [] == line;
  }

  /** A lone colon between two colon-free texts becomes a space. */
  lemma ColonToSpace(head: Text, tail: Text)
    requires ':' !in head && ':' !in tail
    ensures Replace(head + ([':'] + tail), ":", " ") == head + ([' '] + tail)
  {
    ReplaceSkips(head, [':'] + tail, ":", " ");
    ReplaceFront(tail, ":", " ");
    ReplaceSkips(tail, [], ":", " ");
    assert tail + [] == tail;
  }

  /** A lone `N` between two texts free of `N` and `:` becomes a space, and nothing else changes. */
  lemma LoneNToSpace(head: Text, tail: Text)
    requires 'N' !in head && 'N' !in tail && ':' !in head && ':' !in tail
    ensures NormalizeResend(head + (['N'] + tail)) == head + ([' '] + tail)
  {
    var line := head + (['N'] + tail);
    ReplaceSkips(tail, [], "N:", " ");
    assert tail + [] == tail;
    assert !("N:" <= ['N'] + tail) by {
      if |tail| > 0 { assert (['N'] + tail)[1] == tail[0]; }
    }
    assert (['N'] + tail)[1..] == tail;
    assert Replace(['N'] + tail, "N:", " ") == ['N'] + tail;
    ReplaceSkips(head, ['N'] + tail, "N:", " ");
    ReplaceSkips(head, ['N'] + tail, "N", " ");
    ReplaceFront(tail, "N", " ");
    ReplaceSkips(tail, [], "N", " ");
    var normal := head + ([' '] + tail);
    assert ':' !in normal;
    ReplaceSkips(normal, [], ":", " ");
    assert normal + [] == normal;
  }

  /** Marlin's `Resend: <n>` names line `n`. */
  lemma ResendColonForm(n: nat)
    ensures ResendTarget("Resend: " + NatToText(n)) == Some(n)
  {
    var digits := NatToText(n);
    var word: Text := "Resend";
    var tail := [' '] + digits;
    IntToTextBytes(n);
    assert "Resend: " + digits == word + ([':'] + tail);
    assert 'N' !in word + ([':'] + tail);
    WithoutN(word + ([':'] + tail));
    ColonToSpace(word, tail);
    var normal := word + ([' '] + tail);
    assert normal == [] + word + ([' ', ' '] + digits);
    SplitCons(normal, [], word, [' ', ' '] + digits);
    assert [' ', ' '] + digits == [' ', ' '] + digits + [];
    SplitCons([' ', ' '] + digits, [' ', ' '], digits, []);
    SplitBlank([]);
    var words := Split(normal);
    assert words == [word, digits];
    WordNotNumber(word);
    ParseIntToText(n);
    SecondWordFirstNumber(words);
  }

  /** Teacup's `rs N2 Expected checksum 67` names line 2. */
  lemma TeacupResend(line: Text)
    requires line == "rs N2 Expected checksum 67"
    ensures ResendTarget(line) == Some(2)
  {
    var head: Text := "rs ";
    var tail: Text := "2 Expected checksum 67";
    TeacupShape(line, head, tail);
    LoneNToSpace(head, tail);
    TeacupTarget(head + ([' '] + tail));
  }

  /** The Teacup request has a single `N` and no colon. */
  lemma TeacupShape(line: Text, head: Text, tail: Text)
    requires line == "rs N2 Expected checksum 67"
    requires head == "rs " && tail == "2 Expected checksum 67"
    ensures line == head + (['N'] + tail)
    ensures 'N' !in head && 'N' !in tail && ':' !in head && ':' !in tail
  {
  }

  /** The rewritten Teacup request names line 2 through its second word. */
  lemma TeacupTarget(normal: Text)
    requires normal == "rs " + ([' '] + "2 Expected checksum 67")
    ensures var words := Split(normal); FirstNumber(words) == Some(1) && ParseInt(words[1]) == Some(2)
  {
    var words := TeacupWords(normal);
    WordNotNumber(words[0]);
    TwoIsNumber(words[1]);
    SecondWordFirstNumber(words);
  }

  /** When the first word is not a number and the second is, the second is picked. */
  lemma SecondWordFirstNumber(words: seq<Text>)
    requires |words| >= 2 && ParseInt(words[0]).None? && ParseInt(words[1]).Some?
    ensures FirstNumber(words) == Some(1)
  {
    var vals := ParseAll(words);
    assert vals[0].None? && vals[1].Some?;
    assert vals[1..][0] == vals[1];
    assert FirstSome(vals[1..]) == Some(0);
    assert FirstSome(vals) == Some(1);
  }

  lemma TwoIsNumber(w: Text)
    requires w == "2"
    ensures ParseInt(w) == Some(2)
  {
    StripUnpadded(w);
    assert IsNumeral(w);
    assert NumeralValue(w) == NumeralValue([]) * 10 + 2;
  }

  /** The rewritten Teacup request starts with the words `rs` and `2`. */
  lemma TeacupWords(normal: Text) returns (words: seq<Text>)
    requires normal == "rs " + ([' '] + "2 Expected checksum 67")
    ensures words == Split(normal)
    ensures |words| >= 2 && words[0] == "rs" && words[1] == "2"
  {
    var rest: Text := " Expected checksum 67";
    var second: Text := "  2" + rest;
    TeacupPieces(normal, second, rest);
    SplitCons(normal, [], "rs", second);
    SplitCons(second, "  ", "2", rest);
    words := Split(normal);
  }

  /** The rewritten Teacup request as whitespace, a word, whitespace, a word and the rest. */
  lemma TeacupPieces(normal: Text, second: Text, rest: Text)
    requires normal == "rs " + ([' '] + "2 Expected checksum 67")
    requires rest == " Expected checksum 67" && second == "  2" + rest
    ensures normal == [] + "rs" + second && NoSpace("rs") && IsSpace(second[0])
    ensures second == "  " + "2" + rest && NoSpace("2") && IsSpace(rest[0])
    ensures forall i :: 0 <= i < |"  "| ==> IsSpace("  "[i])
  {
  }

  /**
   * One received line while online. `DEBUG_` lines are ignored; an
   * acknowledgment releases the send slot; an `ok` carrying `T:` raises the
   * temperature callback and an `Error` line the error callback; a resend
   * request sets `resendfrom` to the number it names (kept when it names
   * none) and releases the slot.
   */
  function OnLine(s: State, line: Text): (r: Step)
    ensures r.out == []
    ensures StartsWith(line, "DEBUG_") ==> r == Step(s, [], [])
    ensures !StartsWith(line, "DEBUG_") ==>
              && r.state == s.(clear := r.state.clear, resendfrom := r.state.resendfrom)
              && (r.state.clear <==> s.clear || IsAck(line) || IsResendRequest(line))
              && (IsResendRequest(line) ==> r.state.resendfrom == ResendTarget(line).GetOr(s.resendfrom))
              && (!IsResendRequest(line) ==> r.state.resendfrom == s.resendfrom)
              && (Temperature(line) in r.events <==> StartsWith(line, "ok") && Contains(line, "T:"))
              && (FirmwareError(line) in r.events <==> StartsWith(line, "Error"))
              && |r.events| <= 1
    ensures Inv(s) ==> Inv(r.state)
  {
    if StartsWith(line, "DEBUG_") then Step(s, [], [])
    else
      assert StartsWith(line, "ok") ==> line[0] == 'o';
      assert StartsWith(line, "Error") ==> line[0] == 'E';
      var acked := if IsAck(line) then s.(clear := true) else s;
      var events := if StartsWith(line, "ok") && Contains(line, "T:") then [Temperature(line)]
                    else if StartsWith(line, "Error") then [FirmwareError(line)]
                    else [];
      if IsResendRequest(line) then
        Step(acked.(resendfrom := ResendTarget(line).GetOr(acked.resendfrom), clear := true), [], events)
      else Step(acked, [], events)
  }

  /** A read that brings the engine online: a line starting with a greeting or `ok`. */
  predicate AckRead(read: Option<Text>) {
    read.Some? && IsAck(read.value)
  }

  /** How the inner read loop of `_listen_until_online` ends. */
  datatype ReadExit = Greeted(used: nat) | Requery(used: nat) | OutOfInput

  /**
   * The inner loop: read until a greeting, a failed read, or the fifth
   * timed-out read in a row (`empties` counts those seen so far).
   */
  function ReadReplies(replies: seq<Option<Text>>, empties: nat): (r: ReadExit)
    requires empties < 5
    ensures r.Greeted? ==> 1 <= r.used <= |replies| && AckRead(replies[r.used - 1])
    ensures r.Greeted? ==> forall j :: 0 <= j < r.used - 1 ==> !AckRead(replies[j])
    ensures r.Requery? ==> 1 <= r.used <= |replies| && forall j :: 0 <= j < r.used ==> !AckRead(replies[j])
    ensures r.OutOfInput? ==> forall j :: 0 <= j < |replies| ==> !AckRead(replies[j])
    decreases |replies|
  {
    if |replies| == 0 then OutOfInput
    else
      match replies[0]
      case None => Requery(1)
      case Some(line) =>
        var seen := if |line| == 0 then empties + 1 else 0;
        if seen == 5 then Requery(1)
        else if IsAck(line) then Greeted(1)
        else
          match ReadReplies(replies[1..], seen)
          case Greeted(n) => Greeted(n + 1)
          case Requery(n) => Requery(n + 1)
          case OutOfInput => OutOfInput
  }

  /**
   * The length of the run of timed-out reads that ends with read `k`,
   * continuing a run of `empties` seen before the first read: the
   * `empty_lines` counter of `_listen_until_online`.
   */
  function EmptyRun(replies: seq<Option<Text>>, empties: nat, k: nat): nat
    requires k <= |replies|
    decreases k
  {
    if k == 0 then empties
    else if replies[k - 1] == Some("") then EmptyRun(replies, empties, k - 1) + 1
    else 0
  }

  /**
   * The inner loop gives up only where the source breaks out of it: at a
   * failed read, or at a timed-out read that completes five in a row. Every
   * read before the last one it uses succeeded and left the run below five.
   */
  lemma {:induction false} ReadRepliesGivesUpAsSource(replies: seq<Option<Text>>, empties: nat)
    requires empties < 5
    ensures var r := ReadReplies(replies, empties);
            r.Requery? ==>
              || replies[r.used - 1].None?
              || (replies[r.used - 1] == Some("") && EmptyRun(replies, empties, r.used) == 5)
    ensures var r := ReadReplies(replies, empties);
            var last := if r.OutOfInput? then |replies| else r.used - 1;
            forall j :: 0 <= j < last ==> replies[j].Some? && EmptyRun(replies, empties, j + 1) < 5
    decreases |replies|
  {
    if |replies| > 0 && replies[0].Some? {
      var line := replies[0].value;
      var seen := if |line| == 0 then empties + 1 else 0;
      assert EmptyRun(replies, empties, 1) == seen;
      if seen < 5 && !IsAck(line) {
        var tail := replies[1..];
        ReadRepliesGivesUpAsSource(tail, seen);
        forall k | 1 <= k <= |replies|
          ensures EmptyRun(replies, empties, k) == EmptyRun(tail, seen, k - 1)
        {
          EmptyRunShift(replies, empties, k);
        }
        forall j | 1 <= j < |replies|
          ensures replies[j] == tail[j - 1]
        {
        }
      }
    }
  }

  /** A run counted past the first read continues the run that read leaves. */
  lemma {:induction false} EmptyRunShift(replies: seq<Option<Text>>, empties: nat, k: nat)
    requires 1 <= k <= |replies|
    ensures EmptyRun(replies, empties, k) == EmptyRun(replies[1..], EmptyRun(replies, empties, 1), k - 1)
    decreases k
  {
    if k > 1 {
      EmptyRunShift(replies, empties, k - 1);
      assert replies[k - 1] == replies[1..][k - 2];
    }
  }

  /** The outcome of the greeting handshake: online or not, queries written, reads used. */
  datatype Handshake = Handshake(online: bool, queries: seq<Text>, used: nat)

  /**
   * `_listen_until_online`: write the status query `M105`, read replies, and
   * write it again whenever the inner loop gives up, until a greeting
   * arrives or the reads run out. No read is skipped, so the engine comes
   * online exactly when some read is a greeting, right after the first one.
   */
  function AwaitOnline(replies: seq<Option<Text>>): (r: Handshake)
    ensures r.used <= |replies|
    ensures !r.online ==> r.used == |replies|
    ensures |r.queries| > 0 <==> |replies| > 0
    decreases |replies|
  {
    if |replies| == 0 then Handshake(false, [], 0)
    else
      match ReadReplies(replies, 0)
      case Greeted(n) => Handshake(true, ["M105"], n)
      case OutOfInput => Handshake(false, ["M105"], |replies|)
      case Requery(n) =>
        var rest := AwaitOnline(replies[n..]);
        assert forall j :: n <= j < |replies| ==> replies[j] == replies[n..][j - n];
        Handshake(rest.online, ["M105"] + rest.queries, n + rest.used)
  }

  /** A successful handshake ends on the first greeting: it uses no read past it. */
  lemma {:induction false} AwaitOnlineStopsAtGreeting(replies: seq<Option<Text>>)
    ensures var r := AwaitOnline(replies);
            r.online ==> && 1 <= r.used && AckRead(replies[r.used - 1])
                         && forall j :: 0 <= j < r.used - 1 ==> !AckRead(replies[j])
    decreases |replies|
  {
    if |replies| > 0 {
      match ReadReplies(replies, 0)
      case Greeted(n) =>
        assert AwaitOnline(replies) == Handshake(true, ["M105"], n);
      case OutOfInput =>
      case Requery(n) =>
        var tail := replies[n..];
        var rest := AwaitOnline(tail);
        AwaitOnlineStopsAtGreeting(tail);
        assert AwaitOnline(replies) == Handshake(rest.online, ["M105"] + rest.queries, n + rest.used);
        if rest.online {
          assert replies[n + rest.used - 1] == tail[rest.used - 1];
          forall j | 0 <= j < n + rest.used - 1
            ensures !AckRead(replies[j])
          {
            if j >= n {
              assert replies[j] == tail[j - n];
            }
          }
        }
    }
  }

  /** The only line the handshake writes is the status query. */
  lemma {:induction false} AwaitOnlineOnlyQueries(replies: seq<Option<Text>>)
    ensures forall i :: 0 <= i < |AwaitOnline(replies).queries| ==> AwaitOnline(replies).queries[i] == "M105"
    decreases |replies|
  {
    if |replies| > 0 {
      match ReadReplies(replies, 0)
      case Greeted(_) =>
      case OutOfInput =>
      case Requery(n) =>
        AwaitOnlineOnlyQueries(replies[n..]);
    }
  }

  /** The handshake succeeds exactly when some read is a greeting. */
  lemma {:induction false} AwaitOnlineIffGreeting(replies: seq<Option<Text>>)
    ensures AwaitOnline(replies).online <==> exists i :: 0 <= i < |replies| && AckRead(replies[i])
    decreases |replies|
  {
    var r := AwaitOnline(replies);
    if r.online {
      AwaitOnlineStopsAtGreeting(replies);
      assert AckRead(replies[r.used - 1]);
    } else if |replies| > 0 {
      match ReadReplies(replies, 0)
      case Greeted(_) =>
      case OutOfInput =>
      case Requery(n) =>
        var tail := replies[n..];
        AwaitOnlineIffGreeting(tail);
        assert r.online == AwaitOnline(tail).online;
        assert forall j :: n <= j < |replies| ==> replies[j] == tail[j - n];
    }
  }

  /**
   * The online loop of `_listen`: one `OnLine` per line until a failed read
   * or the stop request; the slot is released on the way out.
   */
  function Listen(s: State, replies: seq<Option<Text>>): (r: Step)
    ensures r.out == []
    ensures r.state.clear
    ensures r.state == s.(clear := true, resendfrom := r.state.resendfrom)
    ensures Inv(s) ==> Inv(r.state)
    decreases |replies|
  {
    if |replies| == 0 || replies[0].None? then Step(s.(clear := true), [], [])
    else
      var first := OnLine(s, replies[0].value);
      var rest := Listen(first.state, replies[1..]);
      Step(rest.state, [], first.events + rest.events)
  }

  /**
   * `_listen` from the start: the slot is released; an engine neither
   * printing nor online first runs the handshake, writing its queries
   * when a transport is open; then the online loop takes the remaining reads.
   */
  function ListenThread(s: State, replies: seq<Option<Text>>): (r: Step)
    ensures r.state.online <==> s.online || (!s.printing && exists i :: 0 <= i < |replies| && AckRead(replies[i]))
    ensures r.state.clear
    ensures r.state.lineno == s.lineno && r.state.queueindex == s.queueindex && r.state.sentlines == s.sentlines
    ensures r.state.priqueue == s.priqueue && r.state.mainqueue == s.mainqueue && r.state.printing == s.printing
    ensures forall i :: 0 <= i < |r.out| ==> r.out[i] == "M105"
    ensures Inv(s) ==> Inv(r.state)
  {
    var s0 := s.(clear := true);
    if !s0.printing && !s0.online then
      var h := AwaitOnline(replies);
      AwaitOnlineIffGreeting(replies);
      AwaitOnlineOnlyQueries(replies);
      var s1 := if h.online then s0.(online := true) else s0;
      var rest := Listen(s1, replies[h.used..]);
      Step(rest.state, if s.connected then h.queries else [], (if h.online then [Online] else []) + rest.events)
    else
      Listen(s0, replies)
  }

  /** Four timed-out reads, then `ok`: one query is enough. */
  lemma FourSilentReadsThenOk(replies: seq<Option<Text>>)
    requires replies == [Some(""), Some(""), Some(""), Some(""), Some("ok")]
    ensures AwaitOnline(replies) == Handshake(true, ["M105"], 5)
  {
    assert replies[4..] == [Some("ok")];
    assert IsAck("ok");
    assert ReadReplies(replies[4..], 4) == Greeted(1);
    assert ReadReplies(replies[3..], 3) == Greeted(2);
    assert ReadReplies(replies[2..], 2) == Greeted(3);
    assert ReadReplies(replies[1..], 1) == Greeted(4);
  }

  /** The fifth timed-out read in a row ends the inner loop. */
  lemma FiveSilentReadsGiveUp(replies: seq<Option<Text>>)
    requires replies == [Some(""), Some(""), Some(""), Some(""), Some(""), Some("ok")]
    ensures ReadReplies(replies, 0) == Requery(5)
  {
    assert ReadReplies(replies[4..], 4) == Requery(1);
    assert ReadReplies(replies[3..], 3) == Requery(2);
    assert ReadReplies(replies[2..], 2) == Requery(3);
    assert ReadReplies(replies[1..], 1) == Requery(4);
  }

  /** Five timed-out reads in a row make the host query again before the `ok`. */
  lemma FiveSilentReadsRequery(replies: seq<Option<Text>>)
    requires replies == [Some(""), Some(""), Some(""), Some(""), Some(""), Some("ok")]
    ensures AwaitOnline(replies) == Handshake(true, ["M105", "M105"], 6)
  {
    FiveSilentReadsGiveUp(replies);
    var tail := replies[5..];
    assert tail == [Some("ok")];
    assert IsAck("ok");
    assert ReadReplies(tail, 0) == Greeted(1);
    assert AwaitOnline(tail) == Handshake(true, ["M105"], 1);
  }

  /** A failed read during the handshake ends only the inner loop: the query is written again. */
  lemma FailedReadRequeries()
    ensures AwaitOnline([None, Some("start")]) == Handshake(true, ["M105", "M105"], 2)
  {
    var replies: seq<Option<Text>> := [None, Some("start")];
    assert replies[1..] == [Some("start")];
    assert IsAck("start");
    assert AwaitOnline(replies[1..]) == Handshake(true, ["M105"], 1);
  }

  /** Marlin's resend request rewinds the replay cursor to the line it names and frees the slot. */
  lemma ResendRequestRewinds(s: State, n: nat)
    ensures OnLine(s, "Resend: " + NatToText(n)).state == s.(clear := true, resendfrom := n)
  {
    var line := "Resend: " + NatToText(n);
    assert line[0] == 'R';
    assert !StartsWith(line, "DEBUG_");
    assert Lower(line)[..6] == "resend";
    assert IsResendRequest(line);
    ResendColonForm(n);
  }
}

=== FILE: scheduler.dfy ===
/**
 * One turn of the print thread, `_sendnext`: a pending resend is replayed
 * from the log, else the priority queue is drained, else the document cursor
 * advances, else the job ends. A turn is taken once the previous line was
 * acknowledged (`clear`); while it is not, the thread only polls.
 */
module Scheduler {
  import opened Wrappers
  import opened Text
  import opened Framer
  import opened Engine
  import opened Lifecycle

  /**
   * A turn either completes, or looks up a resend number the log does not
   * hold: the source's `KeyError`, which ends the print thread in state
   * `stuck`, still printing, with the send slot claimed and no epilogue run.
   */
  datatype Turn = Took(step: Step) | MissingFrame(lineno: int, stuck: State)

  /** A firmware resend request the scheduler still has to serve. */
  predicate ResendPending(s: State) {
    -1 < s.resendfrom < s.lineno
  }

  /** The thread's wait is over and the engine is in a state to send. */
  predicate Proceeds(s: State) {
    s.connected && s.printing && s.online && s.clear
  }

  /** A document line that is a host command, run locally instead of sent. */
  predicate IsHostCommand(raw: Text) {
    StartsWith(LStrip(raw), ";@")
  }

  predicate IsHostPause(raw: Text) {
    StartsWith(LStrip(raw), ";@pause")
  }

  /**
   * Resend branch: the logged frame for `resendfrom` is written again as is,
   * not re-framed, and `resendfrom` moves on; nothing else changes.
   */
  function Replay(s: State): (r: Turn)
    requires ResendPending(s)
    ensures s.resendfrom !in s.sentlines ==> r == MissingFrame(s.resendfrom, s)
    ensures s.resendfrom in s.sentlines ==>
              && r.Took?
              && r.step.state == s.(resendfrom := s.resendfrom + 1)
              && r.step.out == (if s.connected then [s.sentlines[s.resendfrom]] else [])
              && r.step.events == []
  {
    if s.resendfrom !in s.sentlines then MissingFrame(s.resendfrom, s)
    else
      var t := Transmit(s, s.sentlines[s.resendfrom], s.resendfrom, false);
      Took(Step(t.state.(resendfrom := s.resendfrom + 1), t.out, []))
  }

  /** Priority branch: the head of the priority queue is written unframed. */
  function PopPriority(s: State): (r: Step)
    requires |s.priqueue| > 0
    ensures r.state == s.(priqueue := s.priqueue[1..])
    ensures r.out == (if s.connected then [s.priqueue[0]] else [])
    ensures r.events == []
  {
    Transmit(s.(priqueue := s.priqueue[1..]), s.priqueue[0], 0, false)
  }

  /** The layer-change callback fires when the cursor crosses into a new layer. */
  function LayerEvents(doc: seq<DocLine>, i: nat): (r: seq<Event>)
    requires i < |doc|
    ensures r == [] || r == [LayerChanged(doc[i].layer)]
    ensures |r| == 1 <==> i > 0 && doc[i - 1].layer != doc[i].layer
  {
    if i > 0 && doc[i - 1].layer != doc[i].layer then [LayerChanged(doc[i].layer)] else []
  }

  /**
   * The layer callbacks raised by the document turns that move the cursor
   * from `i` to `j`, one `LayerEvents` per line, in order.
   */
  function LayerRun(doc: seq<DocLine>, i: nat, j: nat): (r: seq<Event>)
    requires i <= j <= |doc|
    ensures |r| <= j - i
    decreases j
  {
    if i == j then [] else LayerRun(doc, i, j - 1) + LayerEvents(doc, j - 1)
  }

  /**
   * The callbacks keep a listener's idea of the current layer right: after
   * the cursor moves from `i` to `j`, the last layer reported (or, with none
   * reported, the layer of the line before `i`) is the layer of line `j - 1`.
   */
  lemma {:induction false} LayerRunTracksLayer(doc: seq<DocLine>, i: nat, j: nat)
    requires 0 < i <= j <= |doc|
    ensures var r := LayerRun(doc, i, j);
            && (forall a :: 0 <= a < |r| ==> r[a].LayerChanged?)
            && (if |r| == 0 then doc[i - 1].layer else r[|r| - 1].layer) == doc[j - 1].layer
    decreases j
  {
    if i < j {
      LayerRunTracksLayer(doc, i, j - 1);
    }
  }

  /** A layer callback for a layer above `low` and up to `high`. */
  predicate AnnouncesBetween(e: Event, low: int, high: int) {
    e.LayerChanged? && low < e.layer <= high
  }

  /** Two layer callbacks, the first for a lower layer than the second. */
  predicate AnnouncedInOrder(e: Event, f: Event) {
    e.LayerChanged? && f.LayerChanged? && e.layer < f.layer
  }

  /**
   * For a document whose layer numbers never decrease, as the G-code parser
   * numbers them, the layers reported while the cursor moves from `i` to `j`
   * strictly increase and lie above the layer before `i` and up to the
   * layer of line `j - 1`: each new layer is announced once.
   */
  lemma {:induction false} LayerRunIncreases(doc: seq<DocLine>, i: nat, j: nat)
    requires 0 < i <= j <= |doc|
    requires forall a, b :: 0 <= a <= b < |doc| ==> doc[a].layer <= doc[b].layer
    ensures forall a :: 0 <= a < |LayerRun(doc, i, j)| ==>
              AnnouncesBetween(LayerRun(doc, i, j)[a], doc[i - 1].layer, doc[j - 1].layer)
    ensures forall a, b :: 0 <= a < b < |LayerRun(doc, i, j)| ==>
              AnnouncedInOrder(LayerRun(doc, i, j)[a], LayerRun(doc, i, j)[b])
    decreases j
  {
    if i < j {
      var k: nat := j - 1;
      LayerRunIncreases(doc, i, k);
      var r0 := LayerRun(doc, i, k);
      var e := LayerEvents(doc, k);
      assert doc[i - 1].layer <= doc[k - 1].layer <= doc[k].layer;
      assert |e| == 1 ==> doc[k - 1].layer < doc[k].layer && e[0] == LayerChanged(doc[k].layer);
      var r := LayerRun(doc, i, j);
      assert r == r0 + e;
      forall a | 0 <= a < |r|
        ensures AnnouncesBetween(r[a], doc[i - 1].layer, doc[j - 1].layer)
      {
        if a < |r0| {
          assert r[a] == r0[a] && AnnouncesBetween(r0[a], doc[i - 1].layer, doc[k - 1].layer);
        } else {
          assert r[a] == e[0];
        }
      }
      forall a, b | 0 <= a < b < |r|
        ensures AnnouncedInOrder(r[a], r[b])
      {
        if b < |r0| {
          assert r[a] == r0[a] && r[b] == r0[b];
        } else {
          assert r[a] == r0[a] && r[b] == e[0] && AnnouncesBetween(r0[a], doc[i - 1].layer, doc[k - 1].layer);
        }
      }
    }
  }

  /**
   * `processHostCommand` plus the cursor advance: nothing is written; a pause
   * request pauses the engine. `releaseAfterHostCommand` selects the
   * corrected handling of other host commands (see `SendNextCorrected`).
   */
  function RunHostCommand(s: State, pos: Position, raw: Text, releaseAfterHostCommand: bool): (r: State)
    ensures r.queueindex == s.queueindex + 1
    ensures r.lineno == s.lineno && r.sentlines == s.sentlines && r.resendfrom == s.resendfrom
    ensures r.mainqueue == s.mainqueue && r.priqueue == s.priqueue
    ensures IsHostPause(raw) && s.printing ==> r.paused && !r.printing && r.clear == s.clear
    ensures IsHostPause(raw) && s.printing ==>
              r == s.(paused := true, printing := false, snapshot := Some(pos), queueindex := s.queueindex + 1)
    ensures !IsHostPause(raw) ==> r == s.(queueindex := s.queueindex + 1, clear := releaseAfterHostCommand || s.clear)
    ensures Inv(s) && s.queueindex < |s.mainqueue| ==> Inv(r)
  {
    var paused := if IsHostPause(raw) then PauseInThread(s, pos).step.state else s;
    var released := if releaseAfterHostCommand && !IsHostPause(raw) then paused.(clear := true) else paused;
    released.(queueindex := s.queueindex + 1)
  }

  /**
   * An ordinary document line: the text before the first `;` is framed with
   * the next line number when non-empty; an empty remainder writes nothing
   * and releases the send slot. The cursor advances by one.
   */
  function SendLine(s: State, raw: Text): (r: Step)
    ensures r.events == []
    ensures r.state.queueindex == s.queueindex + 1
    ensures r.state.mainqueue == s.mainqueue && r.state.priqueue == s.priqueue
    ensures r.state.resendfrom == s.resendfrom
    ensures r.state.printing == s.printing && r.state.paused == s.paused
    ensures r.state == s.(lineno := r.state.lineno, queueindex := s.queueindex + 1, clear := r.state.clear,
                          sentlines := r.state.sentlines)
    ensures var text := BeforeFirst(raw, ';');
            && (|text| == 0 ==> r.out == [] && r.state.clear && r.state.lineno == s.lineno
                                && r.state.sentlines == s.sentlines)
            && (|text| > 0 ==>
                  && r.state.lineno == s.lineno + 1 && r.state.clear == s.clear
                  && |r.out| == (if s.connected then 1 else 0)
                  && (forall i :: 0 <= i < |r.out| ==>
                        Accepts(r.out[i], s.lineno) && Unframe(r.out[i]).value.command == text)
                  && (Logged(Frame(s.lineno, text)) ==>
                        r.state.sentlines == s.sentlines[s.lineno := Frame(s.lineno, text)])
                  && (!Logged(Frame(s.lineno, text)) ==> r.state.sentlines == s.sentlines))
    ensures Inv(s) && s.queueindex < |s.mainqueue| ==> Inv(r.state)
  {
    var text := BeforeFirst(raw, ';');
    if |text| > 0 then
      var t := Transmit(s, text, s.lineno, true);
      Step(t.state.(lineno := s.lineno + 1, queueindex := s.queueindex + 1), t.out, [])
    else
      Step(s.(clear := true, queueindex := s.queueindex + 1), [], [])
  }

  /**
   * Document branch: the line under the cursor is run as a host command
   * (never transmitted) or sent as an ordinary line.
   */
  function Advance(s: State, pos: Position, releaseAfterHostCommand: bool): (r: Step)
    requires s.queueindex < |s.mainqueue|
    ensures r.state.queueindex == s.queueindex + 1
    ensures r.events == LayerEvents(s.mainqueue, s.queueindex)
    ensures IsHostCommand(s.mainqueue[s.queueindex].raw) ==>
              r == Step(RunHostCommand(s, pos, s.mainqueue[s.queueindex].raw, releaseAfterHostCommand), [], r.events)
    ensures !IsHostCommand(s.mainqueue[s.queueindex].raw) ==>
              r == Step(SendLine(s, s.mainqueue[s.queueindex].raw).state, SendLine(s, s.mainqueue[s.queueindex].raw).out, r.events)
    ensures Inv(s) ==> Inv(r.state)
  {
    var line := s.mainqueue[s.queueindex];
    var events := LayerEvents(s.mainqueue, s.queueindex);
    if IsHostCommand(line.raw) then
      Step(RunHostCommand(s, pos, line.raw, releaseAfterHostCommand), [], events)
    else
      var t := SendLine(s, line.raw);
      Step(t.state, t.out, events)
  }

  /**
   * End of the document: printing stops and the slot is released; unless the
   * engine is paused, the cursor and numbering restart at 0 and the framed
   * reset `N-1 M110` is written, which is never logged.
   */
  function EndJob(s: State): (r: Step)
    ensures !r.state.printing && r.state.clear
    ensures r.events == []
    ensures r.state.sentlines == s.sentlines
    ensures s.paused ==> r == Step(s.(printing := false, clear := true), [], [])
    ensures !s.paused ==>
              && r.state == s.(printing := false, clear := true, queueindex := 0, lineno := 0)
              && r.out == (if s.connected then [Frame(-1, "M110")] else [])
  {
    var s1 := s.(printing := false, clear := true);
    if s.paused then Step(s1, [], [])
    else
      ResetNotLogged();
      Transmit(s1.(queueindex := 0, lineno := 0), "M110", -1, true)
  }

  /** One turn of `_sendnext`, with the host-command handling selected by the flag. */
  function TakeTurn(s: State, pos: Position, releaseAfterHostCommand: bool): (r: Turn)
    ensures r.MissingFrame? ==>
              && Proceeds(s) && ResendPending(s) && s.resendfrom !in s.sentlines
              && r.lineno == s.resendfrom && r.stuck == s.(clear := false)
    ensures r.Took? && Inv(s) ==> Inv(r.step.state)
    ensures r.Took? && Proceeds(s) ==>
              r.step.state.resendfrom == -1 || 0 < r.step.state.resendfrom <= r.step.state.lineno
  {
    if !s.connected then Took(Step(s, [], []))
    else if s.printing && !s.clear then Took(Step(s, [], []))
    else if !(s.printing && s.online) then Took(Step(s.(clear := true), [], []))
    else
      var s0 := s.(clear := false);
      if ResendPending(s0) then Replay(s0)
      else
        var s1 := s0.(resendfrom := -1);
        if |s1.priqueue| > 0 then Took(PopPriority(s1))
        else if s1.queueindex < |s1.mainqueue| then Took(Advance(s1, pos, releaseAfterHostCommand))
        else Took(EndJob(s1))
  }

  /**
   * The branches of a turn: without a transport nothing happens; while
   * printing and unacknowledged the thread only polls; when not printing
   * or offline the slot is released; otherwise a pending resend comes
   * first, then the priority queue, then the document, then the end of the job.
   */
  lemma TakeTurnBranches(s: State, pos: Position, releaseAfterHostCommand: bool)
    ensures var r := TakeTurn(s, pos, releaseAfterHostCommand);
            && (!s.connected ==> r == Took(Step(s, [], [])))
            && (s.connected && s.printing && !s.clear ==> r == Took(Step(s, [], [])))
            && (s.connected && (s.printing ==> s.clear) && !(s.printing && s.online) ==>
                  r == Took(Step(s.(clear := true), [], [])))
            && (Proceeds(s) && ResendPending(s) && s.resendfrom in s.sentlines ==>
                  r == Took(Step(s.(clear := false, resendfrom := s.resendfrom + 1), [s.sentlines[s.resendfrom]], [])))
            && (Proceeds(s) && !ResendPending(s) && |s.priqueue| > 0 ==>
                  r == Took(Step(s.(clear := false, resendfrom := -1, priqueue := s.priqueue[1..]), [s.priqueue[0]], [])))
            && (Proceeds(s) && !ResendPending(s) && |s.priqueue| == 0 && s.queueindex < |s.mainqueue| ==>
                  r == Took(Advance(s.(clear := false, resendfrom := -1), pos, releaseAfterHostCommand)))
            && (Proceeds(s) && !ResendPending(s) && |s.priqueue| == 0 && s.queueindex >= |s.mainqueue| ==>
                  r == Took(EndJob(s.(clear := false, resendfrom := -1))))
  {
  }

  /** A turn that reaches a host command other than a pause. */
  predicate AtPlainHostCommand(s: State) {
    && Proceeds(s) && !ResendPending(s) && |s.priqueue| == 0 && s.queueindex < |s.mainqueue|
    && IsHostCommand(s.mainqueue[s.queueindex].raw) && !IsHostPause(s.mainqueue[s.queueindex].raw)
  }

  /**
   * `_sendnext` exactly as the source has it: a host command other than a
   * pause writes nothing and keeps printing, yet leaves the send slot
   * claimed, so the thread waits for an acknowledgment that will not come.
   */
  function SendNextAsWritten(s: State, pos: Position): (r: Turn)
    ensures AtPlainHostCommand(s) ==>
              r.Took? && r.step.out == [] && r.step.state.printing && !r.step.state.clear
  {
    PlainHostCommandTurn(s, pos, false);
    TakeTurn(s, pos, false)
  }

  /**
   * A turn at a host command other than a pause writes nothing, moves the
   * cursor past it, and leaves the slot as the flag says.
   */
  lemma PlainHostCommandTurn(s: State, pos: Position, releaseAfterHostCommand: bool)
    ensures AtPlainHostCommand(s) ==>
              var r := TakeTurn(s, pos, releaseAfterHostCommand);
              && r.Took? && r.step.out == []
              && r.step.state == s.(clear := releaseAfterHostCommand, resendfrom := -1, queueindex := s.queueindex + 1)
  {
    if AtPlainHostCommand(s) {
      var s1 := s.(clear := false, resendfrom := -1);
      var raw := s.mainqueue[s.queueindex].raw;
      assert s1.mainqueue[s1.queueindex].raw == raw;
      assert RunHostCommand(s1, pos, raw, releaseAfterHostCommand)
          == s1.(queueindex := s.queueindex + 1, clear := releaseAfterHostCommand);
    }
  }

  /**
   * `_sendnext` with host commands other than a pause releasing the send
   * slot, as the empty-line branch does: a turn that writes nothing and keeps
   * printing never leaves the thread waiting for an acknowledgment that no
   * written line will produce.
   */
  function SendNextCorrected(s: State, pos: Position): (r: Turn)
    ensures Proceeds(s) && r.Took? && r.step.out == [] && r.step.state.printing ==> r.step.state.clear
  {
    TakeTurn(s, pos, true)
  }

  /**
   * The correction changes nothing but the send slot, and only on turns that
   * reach a host command other than a pause.
   */
  lemma CorrectionOnlyReleasesSlot(s: State, pos: Position)
    ensures !AtPlainHostCommand(s) ==> SendNextCorrected(s, pos) == SendNextAsWritten(s, pos)
    ensures AtPlainHostCommand(s) ==>
              && SendNextCorrected(s, pos).Took? && SendNextAsWritten(s, pos).Took?
              && SendNextCorrected(s, pos).step
                 == SendNextAsWritten(s, pos).step.(state := SendNextAsWritten(s, pos).step.state.(clear := true))
  {
    if AtPlainHostCommand(s) {
      PlainHostCommandTurn(s, pos, true);
      PlainHostCommandTurn(s, pos, false);
    } else {
      FlagOnlyAtHostCommand(s, pos);
    }
  }

  /** Away from a host command other than a pause, the host-command flag has no effect on a turn. */
  lemma FlagOnlyAtHostCommand(s: State, pos: Position)
    requires !AtPlainHostCommand(s)
    ensures TakeTurn(s, pos, true) == TakeTurn(s, pos, false)
  {
  }

  /**
   * `n` turns of the print thread, each taken after the firmware
   * acknowledged the previous line; stops at a turn that misses the log.
   */
  function AckedTurns(s: State, pos: Position, n: nat): (r: Turn)
    decreases n
  {
    if n == 0 then Took(Step(s, [], []))
    else
      match SendNextCorrected(s.(clear := true), pos)
      case MissingFrame(k, t) => MissingFrame(k, t)
      case Took(first) =>
        match AckedTurns(first.state, pos, n - 1)
        case MissingFrame(k, t) => MissingFrame(k, t)
        case Took(rest) => Took(Step(rest.state, first.out + rest.out, first.events + rest.events))
  }

  /** The logged frames `from`, `from + 1`, .., `from + n - 1`, in that order. */
  function LogRange(log: map<int, Text>, from: int, n: nat): (r: seq<Text>)
    requires forall k :: from <= k < from + n ==> k in log
    ensures |r| == n
    decreases n
  {
    if n == 0 then [] else [log[from]] + LogRange(log, from + 1, n - 1)
  }

  /** The `i`-th frame of a range is the logged frame numbered `from + i`. */
  lemma {:induction false} LogRangeReadsLog(log: map<int, Text>, from: int, n: nat)
    requires forall k :: from <= k < from + n ==> k in log
    ensures forall i :: 0 <= i < n ==> LogRange(log, from, n)[i] == log[from + i]
    decreases n
  {
    if n > 0 {
      LogRangeReadsLog(log, from + 1, n - 1);
      var r := LogRange(log, from, n);
      assert forall i :: 1 <= i < n ==> r[i] == LogRange(log, from + 1, n - 1)[i - 1];
    }
  }

  /**
   * Resend replay: after the firmware asks for line `k` again, the next
   * acknowledged turns write the logged frames `k`, `k + 1`, .. byte for
   * byte and in order, and move nothing but `resendfrom` and the send slot.
   */
  lemma {:induction false} ResendReplaysLog(s: State, pos: Position, n: nat)
    requires s.connected && s.printing && s.online
    requires 0 <= s.resendfrom && s.resendfrom + n <= s.lineno
    requires forall k :: s.resendfrom <= k < s.resendfrom + n ==> k in s.sentlines
    ensures AckedTurns(s, pos, n)
         == Took(Step(s.(clear := if n == 0 then s.clear else false, resendfrom := s.resendfrom + n),
                      LogRange(s.sentlines, s.resendfrom, n), []))
    decreases n
  {
    if n > 0 {
      var next := s.(clear := false, resendfrom := s.resendfrom + 1);
      ResendReplaysLog(next, pos, n - 1);
      assert next.(clear := if n - 1 == 0 then next.clear else false, resendfrom := next.resendfrom + n - 1)
          == s.(clear := false, resendfrom := s.resendfrom + n);
      ReplayStep(s, pos, n);
    }
  }

  /** One more replayed frame in front of the replay of the rest. */
  lemma ReplayStep(s: State, pos: Position, n: nat)
    requires s.connected && s.printing && s.online && n > 0
    requires 0 <= s.resendfrom && s.resendfrom + n <= s.lineno
    requires forall k :: s.resendfrom <= k < s.resendfrom + n ==> k in s.sentlines
    requires var next := s.(clear := false, resendfrom := s.resendfrom + 1);
             AckedTurns(next, pos, n - 1)
             == Took(Step(s.(clear := false, resendfrom := s.resendfrom + n), LogRange(s.sentlines, s.resendfrom + 1, n - 1), []))
    ensures AckedTurns(s, pos, n)
         == Took(Step(s.(clear := false, resendfrom := s.resendfrom + n), LogRange(s.sentlines, s.resendfrom, n), []))
  {
    ReplayFirst(s, pos, n);
  }

  /** The first of `n` acknowledged turns with a resend pending writes the logged frame and moves on by one. */
  lemma ReplayFirst(s: State, pos: Position, n: nat)
    requires s.connected && s.printing && s.online && n > 0
    requires 0 <= s.resendfrom < s.lineno && s.resendfrom in s.sentlines
    ensures var next := s.(clear := false, resendfrom := s.resendfrom + 1);
            AckedTurns(s, pos, n)
            == (match AckedTurns(next, pos, n - 1)
                case MissingFrame(k, t) => MissingFrame(k, t)
                case Took(rest) => Took(Step(rest.state, [s.sentlines[s.resendfrom]] + rest.out, rest.events)))
  {
    var next := s.(clear := false, resendfrom := s.resendfrom + 1);
    ReplayTurn(s.(clear := true), pos);
    AckedTurnsCons(s, pos, n, Step(next, [s.sentlines[s.resendfrom]], []));
  }

  /** `n` acknowledged turns are the first turn followed by `n - 1` more. */
  lemma AckedTurnsCons(s: State, pos: Position, n: nat, first: Step)
    requires n > 0 && SendNextCorrected(s.(clear := true), pos) == Took(first)
    ensures AckedTurns(s, pos, n)
         == (match AckedTurns(first.state, pos, n - 1)
             case MissingFrame(k, t) => MissingFrame(k, t)
             case Took(rest) => Took(Step(rest.state, first.out + rest.out, first.events + rest.events)))
  {
  }

  /** One acknowledged turn with a resend pending writes the logged frame and moves on by one. */
  lemma ReplayTurn(s: State, pos: Position)
    requires Proceeds(s) && ResendPending(s) && s.resendfrom in s.sentlines
    ensures SendNextCorrected(s, pos)
         == Took(Step(s.(clear := false, resendfrom := s.resendfrom + 1), [s.sentlines[s.resendfrom]], []))
  {
  }

  /**
   * Once the replay has caught up with the line counter, the next turn
   * clears `resendfrom` to -1 and goes back to normal sending.
   */
  lemma ResendEndsWhenCaughtUp(s: State, pos: Position)
    requires Proceeds(s) && s.resendfrom == s.lineno
    ensures SendNextCorrected(s, pos).Took? && SendNextCorrected(s, pos).step.state.resendfrom == -1
  {
  }

  /**
   * Priority before document: with no resend pending, the next `n`
   * acknowledged turns write the first `n` priority commands unframed, in
   * order, and neither the cursor nor the line number moves.
   */
  lemma {:induction false} PriorityQueueDrainsFirst(s: State, pos: Position, n: nat)
    requires s.connected && s.printing && s.online && !ResendPending(s)
    requires n <= |s.priqueue|
    ensures AckedTurns(s, pos, n)
         == Took(Step(s.(clear := if n == 0 then s.clear else false,
                        resendfrom := if n == 0 then s.resendfrom else -1,
                        priqueue := s.priqueue[n..]),
                      s.priqueue[..n], []))
    decreases n
  {
    if n > 0 {
      var next := s.(clear := false, resendfrom := -1, priqueue := s.priqueue[1..]);
      PriorityQueueDrainsFirst(next, pos, n - 1);
      assert next.priqueue[n - 1..] == s.priqueue[n..];
      assert next.(clear := if n - 1 == 0 then next.clear else false,
                   resendfrom := if n - 1 == 0 then next.resendfrom else -1,
                   priqueue := next.priqueue[n - 1..])
          == s.(clear := false, resendfrom := -1, priqueue := s.priqueue[n..]);
      assert [s.priqueue[0]] + next.priqueue[..n - 1] == s.priqueue[..n];
      PriorityStep(s, pos, n);
    }
  }

  /** One more priority command in front of the drain of the rest. */
  lemma PriorityStep(s: State, pos: Position, n: nat)
    requires s.connected && s.printing && s.online && !ResendPending(s)
    requires 0 < n <= |s.priqueue|
    requires var next := s.(clear := false, resendfrom := -1, priqueue := s.priqueue[1..]);
             AckedTurns(next, pos, n - 1)
             == Took(Step(s.(clear := false, resendfrom := -1, priqueue := s.priqueue[n..]), next.priqueue[..n - 1], []))
    ensures AckedTurns(s, pos, n)
         == Took(Step(s.(clear := false, resendfrom := -1, priqueue := s.priqueue[n..]),
                      [s.priqueue[0]] + s.priqueue[1..][..n - 1], []))
  {
    var next := s.(clear := false, resendfrom := -1, priqueue := s.priqueue[1..]);
    PriorityTurn(s.(clear := true), pos);
    AckedTurnsCons(s, pos, n, Step(next, [s.priqueue[0]], []));
  }

  /** One acknowledged turn with no resend pending writes the head of the priority queue. */
  lemma PriorityTurn(s: State, pos: Position)
    requires Proceeds(s) && !ResendPending(s) && |s.priqueue| > 0
    ensures SendNextCorrected(s, pos)
         == Took(Step(s.(clear := false, resendfrom := -1, priqueue := s.priqueue[1..]), [s.priqueue[0]], []))
  {
  }

  /**
   * Line numbering: a turn keeps the line number, or advances it by exactly
   * one while writing a frame numbered with the old value, or (only when the
   * job ends) restarts it at 0.
   */
  lemma LineNumberAdvancesByFrames(s: State, pos: Position)
    ensures var r := SendNextCorrected(s, pos);
            r.Took? ==>
              || (r.step.state.lineno == s.lineno)
              || (&& r.step.state.lineno == s.lineno + 1
                  && |r.step.out| == 1 && Accepts(r.step.out[0], s.lineno))
              || (r.step.state.lineno == 0 && !r.step.state.printing)
  {
    if Proceeds(s) && !ResendPending(s) && |s.priqueue| == 0 && s.queueindex < |s.mainqueue| {
      var s1 := s.(clear := false, resendfrom := -1);
      var raw := s1.mainqueue[s1.queueindex].raw;
      if !IsHostCommand(raw) {
        var t := SendLine(s1, raw);
        assert SendNextCorrected(s, pos).step.out == t.out;
      }
    }
  }

  /** A document holding one host command that is not a pause, then an ordinary line. */
  function StallExample(): (s: State)
    ensures Proceeds(s) && !ResendPending(s) && s.priqueue == [] && s.queueindex < |s.mainqueue|
  {
    Initial().(connected := true, online := true, printing := true, clear := true,
               mainqueue := [DocLine(0, ";@beep"), DocLine(0, "G1 X1")])
  }

  /** The example's first turn reaches the host command `;@beep`. */
  lemma StallExampleAtHostCommand()
    ensures AtPlainHostCommand(StallExample())
  {
    BeepIsPlainHostCommand(StallExample().mainqueue[0].raw);
  }

  lemma BeepIsPlainHostCommand(raw: Text)
    requires raw == ";@beep"
    ensures IsHostCommand(raw) && !IsHostPause(raw)
  {
    assert LStrip(raw) == raw;
    assert raw[..2] == ";@";
  }

  /**
   * The source as written stalls on a host command other than a pause: the
   * turn writes nothing, so no acknowledgment will come, yet it leaves the
   * send slot claimed, and the next turn only waits.
   */
  lemma HostCommandStallsAsWritten(s: State, pos: Position)
    requires AtPlainHostCommand(s)
    ensures var r := SendNextAsWritten(s, pos);
            && r.Took? && r.step.out == [] && r.step.state.printing && !r.step.state.clear
            && r.step.state.queueindex == s.queueindex + 1
            && SendNextAsWritten(r.step.state, pos) == Took(Step(r.step.state, [], []))
  {
  }

  /**
   * The corrected turn runs the host command, writes nothing, moves the
   * cursor past it and releases the slot, so the next turn proceeds.
   */
  lemma HostCommandReleasesSlot(s: State, pos: Position)
    requires AtPlainHostCommand(s)
    ensures var r := SendNextCorrected(s, pos);
            && r.Took? && r.step.out == []
            && r.step.state == s.(resendfrom := -1, queueindex := s.queueindex + 1)
            && Proceeds(r.step.state)
  {
  }

  /**
   * In the example the corrected turn after the host command frames and
   * writes the ordinary line as line 0.
   */
  lemma SecondLineIsSent(s: State, pos: Position)
    requires s == StallExample().(resendfrom := -1, queueindex := 1)
    ensures var r := SendNextCorrected(s, pos);
            r.Took? && |r.step.out| == 1 && Accepts(r.step.out[0], 0)
  {
    var line: Text := "G1 X1";
    assert s.mainqueue[1].raw == line;
    assert !IsHostCommand(line);
    BeforeFirstAbsent(line, ';');
    var t := SendLine(s.(clear := false), line);
    assert SendNextCorrected(s, pos) == Took(Step(t.state, t.out, []));
  }

  /**
   * `pause` from another thread is the in-thread pause, then the print
   * thread's last turn, which finds printing cleared and writes nothing,
   * then the `_print` epilogue.
   */
  lemma PauseJoinsLastTurn(s: State, pos: Position, at: Position)
    requires s.printing
    ensures var halted := PauseInThread(s, pos).step.state;
            var last := SendNextAsWritten(halted, at);
            && last.Took? && last.step.out == [] && last.step.events == []
            && Pause(s, pos).step == FinishPrint(last.step.state)
  {
  }

  /**
   * After a pause and a resume the numbering continues, but the log was
   * emptied by the joined thread's epilogue: a resend request for any line
   * sent before the pause makes the next turn miss the log.
   */
  lemma ResendAfterPauseMisses(s: State, pos: Position, at: Position, k: int)
    requires s.printing && s.online && s.connected
    requires 0 <= k < s.lineno
    ensures var resumed := Resume(Pause(s, pos).step.state).step.state;
            var r := SendNextAsWritten(resumed.(resendfrom := k, clear := true), at);
            r.MissingFrame? && r.lineno == k
  {
  }

  /**
   * `startprint` accepts any start index, so a cursor beyond the document
   * leaves `Inv`; once the reset is acknowledged, the first turn ends the
   * job and puts the cursor back at 0, which restores it.
   */
  lemma StartBeyondDocumentEnds(s: State, doc: seq<DocLine>, startindex: nat, pos: Position)
    requires Inv(s) && s.online && s.connected && !s.printing && !s.paused && s.priqueue == []
    requires startindex > |doc|
    ensures var t := StartPrint(s, doc, startindex).step.state;
            var r := SendNextAsWritten(t.(clear := true), pos);
            && !Inv(t)
            && r.Took? && r.step.state.queueindex == 0 && !r.step.state.printing && Inv(r.step.state)
  {
  }
}

=== FILE: target.dfy ===
/**
 * How `connect` reads its port argument: `host:port`, where the host is a
 * host name or a dotted-quad address and the port a number in 1..65535,
 * names a TCP endpoint; anything else is the path of a serial device.
 */
module Target {
  import opened Wrappers
  import opened Text

  datatype Target = Tcp(host: Text, port: int) | Serial(device: Text)

  predicate IsAlnum(c: Byte) {
    ('a' <= c <= 'z') || ('A' <= c <= 'Z') || IsDigit(c)
  }

  /** One label of a host name: letters, digits and hyphens, with no hyphen at either end. */
  predicate IsLabel(l: Text) {
    && |l| > 0
    && IsAlnum(l[0])
    && IsAlnum(l[|l| - 1])
    && forall i :: 0 <= i < |l| ==> IsAlnum(l[i]) || l[i] == '-'
  }

  /** The second alternative of the address pattern: labels separated by single dots. */
  predicate IsHostname(h: Text) {
    var labels := SplitOn(h, '.');
    forall i :: 0 <= i < |labels| ==> IsLabel(labels[i])
  }

  /** A decimal number 0..255 written without a leading zero. */
  predicate IsOctet(p: Text) {
    && IsNumeral(p)
    && |p| <= 3
    && (|p| > 1 ==> p[0] != '0')
    && NumeralValue(p) <= 255
  }

  /** The first alternative of the address pattern: four octets separated by dots. */
  predicate IsDottedQuad(h: Text) {
    var parts := SplitOn(h, '.');
    |parts| == 4 && forall i :: 0 <= i < |parts| ==> IsOctet(parts[i])
  }

  /** Either alternative, matched from the start to the end of the text. */
  predicate IsAddress(h: Text) {
    IsDottedQuad(h) || IsHostname(h)
  }

  /**
   * `host_regexp.match(h)`: the pattern is anchored with `^` and `$`, and
   * `$` also matches just before a newline that ends the text.
   */
  predicate MatchesHost(h: Text) {
    IsAddress(h) || (|h| > 0 && h[|h| - 1] == '\n' && IsAddress(h[..|h| - 1]))
  }

  /**
   * The transport `connect` opens for `port`: TCP when the text splits at
   * its only `:` into a matching host and a number `int()` accepts in
   * 1..65535; the serial device `port` in every other case.
   */
  function Classify(port: Text): (r: Target)
    ensures r.Serial? ==> r.device == port
    ensures r.Tcp? ==>
              && |r.host| < |port|
              && port[..|r.host|] == r.host
              && port[|r.host|] == ':'
              && ':' !in r.host
              && ':' !in port[|r.host| + 1..]
              && MatchesHost(r.host)
              && ParseInt(port[|r.host| + 1..]) == Some(r.port)
              && 1 <= r.port <= 65535
  {
    if ':' !in port then Serial(port)
    else
      var bits := SplitOn(port, ':');
      if |bits| != 2 then Serial(port)
      else
        SplitOnTwo(port, ':');
        match ParseInt(bits[1])
        case None => Serial(port)
        case Some(p) =>
          if MatchesHost(bits[0]) && 1 <= p <= 65535 then Tcp(bits[0], p) else Serial(port)
  }

  /** Two pieces of `s.split(c)` are the text before and after its only `c`. */
  lemma {:induction false} SplitOnTwo(s: Text, c: Byte)
    requires |SplitOn(s, c)| == 2
    ensures var bits := SplitOn(s, c);
            && |bits[0]| < |s|
            && s[..|bits[0]|] == bits[0]
            && s[|bits[0]|] == c
            && s[|bits[0]| + 1..] == bits[1]
  {
    var head := BeforeFirst(s, c);
    var tail := s[|head| + 1..];
    assert SplitOn(s, c) == [head] + SplitOn(tail, c);
    assert |SplitOn(tail, c)| == 1;
    assert |BeforeFirst(tail, c)| == |tail|;
  }

  /** A host and a port number joined by `:` name that TCP endpoint. */
  lemma ClassifyTcp(host: Text, tail: Text, p: int)
    requires ':' !in host && ':' !in tail
    requires MatchesHost(host)
    requires ParseInt(tail) == Some(p) && 1 <= p <= 65535
    ensures Classify(host + ":" + tail) == Tcp(host, p)
  {
    var port := host + ":" + tail;
    assert port[|host|] == ':';
    SplitOnOnce(host, ':', tail);
  }

  /** `host:port` written with `str(port)` is read back as that endpoint. */
  lemma ClassifyEndpoint(host: Text, p: int)
    requires ':' !in host && MatchesHost(host)
    requires 1 <= p <= 65535
    ensures Classify(host + ":" + IntToText(p)) == Tcp(host, p)
  {
    IntToTextBytes(p);
    ParseIntToText(p);
    ClassifyTcp(host, IntToText(p), p);
  }

  /** A text with no `:` is always a serial device. */
  lemma ClassifyDevice(port: Text)
    requires ':' !in port
    ensures Classify(port) == Serial(port)
  {
  }

  /** A port number outside 1..65535 makes the whole text a serial device path. */
  lemma ClassifyOutOfRange(host: Text, p: int)
    requires ':' !in host
    requires p < 1 || p > 65535
    ensures Classify(host + ":" + IntToText(p)) == Serial(host + ":" + IntToText(p))
  {
    var port := host + ":" + IntToText(p);
    IntToTextBytes(p);
    ParseIntToText(p);
    assert port[|host|] == ':';
    SplitOnOnce(host, ':', IntToText(p));
  }

  /** Every dotted quad is also a host name, so the first alternative never changes the verdict. */
  lemma {:induction false} DottedQuadIsHostname(h: Text)
    requires IsDottedQuad(h)
    ensures IsHostname(h)
  {
    var parts := SplitOn(h, '.');
    forall i | 0 <= i < |parts|
      ensures IsLabel(parts[i])
    {
      OctetIsLabel(parts[i]);
    }
  }

  lemma OctetIsLabel(p: Text)
    requires IsOctet(p)
    ensures IsLabel(p)
  {
    assert forall i :: 0 <= i < |p| ==> IsDigit(p[i]);
  }
}

=== FILE: text.dfy ===
/**
 * Byte-string helpers with the meaning Python 2's `str` methods give them
 * in the C locale: the engine only ever cuts, compares and numbers lines.
 */
module Text {
  import opened Wrappers

  /** A Python 2 `str` is a byte string: every character is one byte. */
  type Byte = c: char | c as int < 256
  type Text = seq<Byte>

  /** The characters `str.split()` and `str.strip()` treat as whitespace. */
  predicate IsSpace(c: Byte) {
    c == ' ' || c == '\t' || c == '\n' || c == '\r' || c as int == 11 || c as int == 12
  }

  predicate IsDigit(c: Byte) {
    '0' <= c <= '9'
  }

  predicate NoSpace(s: Text) {
    forall i :: 0 <= i < |s| ==> !IsSpace(s[i])
  }

  /** `s.startswith(p)`. */
  predicate StartsWith(s: Text, p: Text) {
    p <= s
  }

  /** `p in s`: `p` occurs at some offset of `s`. */
  predicate Contains(s: Text, p: Text)
    decreases |s|
  {
    p <= s || (|s| > 0 && Contains(s[1..], p))
  }

  /** Whatever surrounds it, a text contains each of its infixes. */
  lemma {:induction false} ContainsInfix(a: Text, p: Text, b: Text)
    ensures Contains(a + p + b, p)
    decreases |a|
  {
    if |a| == 0 {
      assert a + p + b == p + b;
      assert p <= p + b;
    } else {
      assert (a + p + b)[1..] == a[1..] + p + b;
      ContainsInfix(a[1..], p, b);
    }
  }

  /** `s.lstrip()`: drops leading whitespace and nothing else. */
  function LStrip(s: Text): (r: Text)
    ensures |r| <= |s| && r == s[|s| - |r|..]
    ensures forall i :: 0 <= i < |s| - |r| ==> IsSpace(s[i])
    ensures |r| > 0 ==> !IsSpace(r[0])
    decreases |s|
  {
    if |s| > 0 && IsSpace(s[0]) then LStrip(s[1..]) else s
  }

  /** `s.rstrip()`: drops trailing whitespace and nothing else. */
  function RStrip(s: Text): (r: Text)
    ensures r <= s
    ensures forall i :: |r| <= i < |s| ==> IsSpace(s[i])
    ensures |r| > 0 ==> !IsSpace(r[|r| - 1])
    decreases |s|
  {
    if |s| > 0 && IsSpace(s[|s| - 1]) then RStrip(s[..|s| - 1]) else s
  }

  /** `s.strip()`. */
  function Strip(s: Text): Text {
    RStrip(LStrip(s))
  }

  /** A text that neither starts nor ends with whitespace is its own strip. */
  lemma StripUnpadded(s: Text)
    requires |s| > 0 && !IsSpace(s[0]) && !IsSpace(s[|s| - 1])
    ensures Strip(s) == s
  {
  }

  function LowerByte(c: Byte): (r: Byte)
    ensures 'A' <= c <= 'Z' ==> r as int == c as int + 32
    ensures !('A' <= c <= 'Z') ==> r == c
  {
    if 'A' <= c <= 'Z' then (c as int + 32) as char else c
  }

  /** `s.lower()`: only the ASCII capitals change. */
  function Lower(s: Text): (r: Text)
    ensures |r| == |s|
    ensures forall i :: 0 <= i < |s| ==> r[i] == LowerByte(s[i])
  {
    seq(|s|, i requires 0 <= i < |s| => LowerByte(s[i]))
  }

  /** `s.replace(pat, rep)`: occurrences are replaced left to right, without overlap. */
  function Replace(s: Text, pat: Text, rep: Text): (r: Text)
    requires |pat| > 0
    decreases |s|
  {
    if |s| == 0 then []
    else if pat <= s then rep + Replace(s[|pat|..], pat, rep)
    else [s[0]] + Replace(s[1..], pat, rep)
  }

  /** Replacing a single byte by a single byte leaves no occurrence of it behind. */
  lemma {:induction false} ReplaceByteRemoves(s: Text, c: Byte, d: Byte)
    requires c != d
    ensures c !in Replace(s, [c], [d])
    ensures |Replace(s, [c], [d])| == |s|
    decreases |s|
  {
    if |s| > 0 {
      ReplaceByteRemoves(s[1..], c, d);
    }
  }

  /** Replacing never introduces a byte that neither the text nor the replacement has. */
  lemma {:induction false} ReplaceKeepsAbsent(s: Text, pat: Text, rep: Text, c: Byte)
    requires |pat| > 0 && c !in s && c !in rep
    ensures c !in Replace(s, pat, rep)
    decreases |s|
  {
    if |s| > 0 {
      if pat <= s {
        ReplaceKeepsAbsent(s[|pat|..], pat, rep, c);
      } else {
        ReplaceKeepsAbsent(s[1..], pat, rep, c);
      }
    }
  }

  /** A stretch that does not contain the pattern's first byte passes through unchanged. */
  lemma {:induction false} ReplaceSkips(a: Text, b: Text, pat: Text, rep: Text)
    requires |pat| > 0 && pat[0] !in a
    ensures Replace(a + b, pat, rep) == a + Replace(b, pat, rep)
    decreases |a|
  {
    if |a| > 0 {
      assert !(pat <= a + b) by { assert (a + b)[0] == a[0]; }
      assert (a + b)[1..] == a[1..] + b;
      ReplaceSkips(a[1..], b, pat, rep);
    } else {
      assert a + b == b;
    }
  }

  /** An occurrence at the front is replaced. */
  lemma ReplaceFront(b: Text, pat: Text, rep: Text)
    requires |pat| > 0
    ensures Replace(pat + b, pat, rep) == rep + Replace(b, pat, rep)
  {
    assert pat <= pat + b;
    assert (pat + b)[|pat|..] == b;
  }

  /** The text before the first `c`: `s.split(c)[0]`. */
  function BeforeFirst(s: Text, c: Byte): (r: Text)
    ensures r <= s && c !in r
    ensures |r| < |s| ==> s[|r|] == c
    decreases |s|
  {
    if |s| == 0 || s[0] == c then [] else [s[0]] + BeforeFirst(s[1..], c)
  }

  /** `s.split(c)` for a one-byte separator: the pieces between separators. */
  function SplitOn(s: Text, c: Byte): (r: seq<Text>)
    ensures |r| > 0
    ensures forall i :: 0 <= i < |r| ==> c !in r[i]
    decreases |s|
  {
    var head := BeforeFirst(s, c);
    if |head| == |s| then [s] else [head] + SplitOn(s[|head| + 1..], c)
  }

  /** `s.split(c)` has two pieces exactly when `c` occurs once, and they are the two sides. */
  lemma {:induction false} SplitOnOnce(a: Text, c: Byte, b: Text)
    requires c !in a && c !in b
    ensures SplitOn(a + [c] + b, c) == [a, b]
  {
    var s := a + [c] + b;
    BeforeFirstAt(a, c, [c] + b);
    assert a + ([c] + b) == s;
    assert s[|a| + 1..] == b;
    BeforeFirstAbsent(b, c);
  }

  lemma {:induction false} BeforeFirstAbsent(s: Text, c: Byte)
    requires c !in s
    ensures BeforeFirst(s, c) == s
    decreases |s|
  {
    if |s| > 0 {
      BeforeFirstAbsent(s[1..], c);
    }
  }

  lemma {:induction false} BeforeFirstAt(a: Text, c: Byte, b: Text)
    requires c !in a && |b| > 0 && b[0] == c
    ensures BeforeFirst(a + b, c) == a
    decreases |a|
  {
    if |a| == 0 {
      assert a + b == b;
    } else {
      assert (a + b)[1..] == a[1..] + b;
      BeforeFirstAt(a[1..], c, b);
    }
  }

  /** The position of the last `c` in `s`, if any: `s.rfind(c)`. */
  function LastIndexOf(s: Text, c: Byte): (r: Option<nat>)
    ensures r.Some? ==> r.value < |s| && s[r.value] == c && c !in s[r.value + 1..]
    ensures r.None? ==> c !in s
    decreases |s|
  {
    if |s| == 0 then None
    else if s[|s| - 1] == c then Some(|s| - 1)
    else
      var r := LastIndexOf(s[..|s| - 1], c);
      assert r.Some? ==> s[r.value + 1..] == s[..|s| - 1][r.value + 1..] + [s[|s| - 1]];
      r
  }

  /** A separator followed only by text without it is the last one. */
  lemma LastIndexOfAt(a: Text, c: Byte, b: Text)
    requires c !in b
    ensures LastIndexOf(a + [c] + b, c) == Some(|a|)
  {
    var s := a + [c] + b;
    assert s[|a|] == c;
    assert s[|a| + 1..] == b;
  }

  /** The longest whitespace-free prefix. */
  function Word(s: Text): (r: Text)
    ensures r <= s && NoSpace(r)
    ensures |r| < |s| ==> IsSpace(s[|r|])
    ensures |s| > 0 && !IsSpace(s[0]) ==> |r| > 0
    decreases |s|
  {
    if |s| == 0 || IsSpace(s[0]) then [] else [s[0]] + Word(s[1..])
  }

  /** `s.split()`: the maximal runs of non-whitespace, in order. */
  function Split(s: Text): seq<Text>
    decreases |s|
  {
    if |s| == 0 then []
    else if IsSpace(s[0]) then Split(s[1..])
    else
      var w := Word(s);
      [w] + Split(s[|w|..])
  }

  lemma {:induction false} WordAt(w: Text, rest: Text)
    requires NoSpace(w)
    requires |rest| == 0 || IsSpace(rest[0])
    ensures Word(w + rest) == w
    decreases |w|
  {
    if |w| == 0 {
      assert w + rest == rest;
    } else {
      assert (w + rest)[1..] == w[1..] + rest;
      WordAt(w[1..], rest);
    }
  }

  /** Leading whitespace does not change the words. */
  lemma {:induction false} SplitSkipsSpace(s: Text, sp: Text, t: Text)
    requires s == sp + t
    requires forall i :: 0 <= i < |sp| ==> IsSpace(sp[i])
    ensures Split(s) == Split(t)
    decreases |sp|
  {
    if |sp| == 0 {
      assert s == t;
    } else {
      assert s[1..] == sp[1..] + t;
      SplitSkipsSpace(s[1..], sp[1..], t);
    }
  }

  /**
   * Splitting peels off one word: leading whitespace is skipped and the word
   * ends where whitespace (or the text) does.
   */
  lemma SplitCons(s: Text, sp: Text, w: Text, rest: Text)
    requires s == sp + w + rest
    requires forall i :: 0 <= i < |sp| ==> IsSpace(sp[i])
    requires |w| > 0 && NoSpace(w)
    requires |rest| == 0 || IsSpace(rest[0])
    ensures Split(s) == [w] + Split(rest)
  {
    SplitSkipsSpace(s, sp, w + rest);
    WordAt(w, rest);
    assert (w + rest)[|w|..] == rest;
  }

  /** A text of whitespace alone has no words. */
  lemma SplitBlank(sp: Text)
    requires forall i :: 0 <= i < |sp| ==> IsSpace(sp[i])
    ensures Split(sp) == []
  {
    SplitSkipsSpace(sp, sp, []);
  }

  /** Words joined by single spaces. */
  function JoinSpaced(ws: seq<Text>): Text
    decreases |ws|
  {
    if |ws| == 0 then [] else if |ws| == 1 then ws[0] else ws[0] + ([' '] + JoinSpaced(ws[1..]))
  }

  /** Splitting undoes joining, for words that are non-empty and whitespace-free. */
  lemma {:induction false} SplitJoin(ws: seq<Text>)
    requires forall i :: 0 <= i < |ws| ==> |ws[i]| > 0 && NoSpace(ws[i])
    ensures Split(JoinSpaced(ws)) == ws
    decreases |ws|
  {
    if |ws| == 0 {
      SplitBlank([]);
    } else if |ws| == 1 {
      SplitCons(ws[0], [], ws[0], []);
      SplitBlank([]);
    } else {
      var tail := JoinSpaced(ws[1..]);
      assert |ws[0]| > 0 && NoSpace(ws[0]);
      assert |ws[1]| > 0 && NoSpace(ws[1]);
      SplitJoinStep(ws[0], tail);
      SplitJoin(ws[1..]);
      assert ws == [ws[0]] + ws[1..];
    }
  }

  lemma SplitJoinStep(w: Text, tail: Text)
    requires |w| > 0 && NoSpace(w)
    ensures Split(w + ([' '] + tail)) == [w] + Split(tail)
  {
    var rest: Text := [' '] + tail;
    SplitCons(w + rest, [], w, rest);
    SplitSkipsSpace(rest, [' '], tail);
  }

  function DigitValue(c: Byte): nat
    requires IsDigit(c)
  {
    c as int - '0' as int
  }

  function DigitByte(d: nat): (c: Byte)
    requires d < 10
    ensures IsDigit(c) && DigitValue(c) == d
  {
    ('0' as int + d) as char
  }

  /** One or more decimal digits. */
  predicate IsNumeral(s: Text) {
    |s| > 0 && forall i :: 0 <= i < |s| ==> IsDigit(s[i])
  }

  /** The value of a run of decimal digits, most significant first. */
  function NumeralValue(s: Text): nat
    requires forall i :: 0 <= i < |s| ==> IsDigit(s[i])
    decreases |s|
  {
    if |s| == 0 then 0 else NumeralValue(s[..|s| - 1]) * 10 + DigitValue(s[|s| - 1])
  }

  /** `str(n)` for a natural number: decimal, no leading zeros. */
  function NatToText(n: nat): (r: Text)
    ensures IsNumeral(r)
    ensures |r| > 1 ==> r[0] != '0'
    decreases n
  {
    if n < 10 then [DigitByte(n)] else NatToText(n / 10) + [DigitByte(n % 10)]
  }

  /** `str(n)`: a minus sign for negative numbers, then the digits. */
  function IntToText(n: int): Text {
    if n < 0 then "-" + NatToText(-n) else NatToText(n)
  }

  /**
   * `int(s)` for base 10: surrounding whitespace is ignored, an optional sign,
   * then at least one digit; anything else is a `ValueError` (`None`).
   */
  function ParseInt(s: Text): Option<int> {
    var t := Strip(s);
    if |t| > 0 && (t[0] == '-' || t[0] == '+') then
      if IsNumeral(t[1..]) then
        var v: int := NumeralValue(t[1..]);
        Some(if t[0] == '-' then -v else v)
      else None
    else if IsNumeral(t) then Some(NumeralValue(t))
    else None
  }

  lemma {:induction false} NatToTextValue(n: nat)
    ensures NumeralValue(NatToText(n)) == n
    decreases n
  {
    if n >= 10 {
      NatToTextValue(n / 10);
      var r := NatToText(n);
      assert r[..|r| - 1] == NatToText(n / 10);
    }
  }

  /** `int(str(n)) == n`. */
  lemma ParseIntToText(n: int)
    ensures ParseInt(IntToText(n)) == Some(n)
  {
    var s := IntToText(n);
    var m: nat := if n < 0 then -n else n;
    NatToTextValue(m);
    StripUnpadded(s);
    if n < 0 {
      assert s[1..] == NatToText(m);
    }
  }

  /** A numeral or a negative number holds no whitespace and none of the given separators. */
  lemma IntToTextBytes(n: int)
    ensures NoSpace(IntToText(n))
    ensures '*' !in IntToText(n) && ':' !in IntToText(n) && ';' !in IntToText(n)
  {
    var s := IntToText(n);
    assert forall i :: 0 <= i < |s| ==> IsDigit(s[i]) || s[i] == '-';
  }
}

=== FILE: wrappers.dfy ===
/** The optional-value datatype used throughout the model. */
module Wrappers {

  /** `None` plays the role of Python's `None` (or of an absent result). */
  datatype Option<+T> = None | Some(value: T) {

    /** The wrapped value, or `default` when there is none. */
    function GetOr(default: T): T {
      match this
      case Some(v) => v
      case None => default
    }
  }
}
